=== FILE: README.md ===
# gatsby-source-github-graphql, modelled in Dafny

This project models the record pipeline of the `gatsby-source-github-graphql` Gatsby
source plugin and of its discussions sub-plugin. The model is a set of pure functions
over immutable JavaScript-like values (`JsValues.Value`, with objects as string-keyed
maps), and each Gatsby or GitHub service it calls is a parameter. Properties of the
pipeline are proved about those functions.

- `js_values.dfy` (`JsValues`): the JavaScript value semantics the code relies on.
  - `undefined`, `null` and property reads.
  - `??`, string coercion for template literals and computed keys.
  - Object spread and `removeKey`.
  - `Option` / `Result` for the places where the code throws.
- `node_types.dfy` (`NodeTypes`): the type registry.
  - The 14 default roles and the GitHub API constants.
  - Resolution against an override by a leaf-override deep merge.
- `fragments.dfy` (`Fragments`): the role-keyed GraphQL field-selection table
  (`getGithubPlainResolverFields`).
- `plugins.dfy` (`Plugins`): the configuration the hooks receive.
  - Top-level options, sub-plugins and their modules.
  - Token choice (`customToken ?? token`) and option forwarding (own options minus `token`).
- `source_nodes.dfy` (`Sourcing`): the `sourceNodes` hook.
  - The sub-plugin walk, provenance tagging, per-type fan-in and custom mappers.
  - The registered-type filter and node-creation requests.
  - Both copies are modelled: `source-nodes.js` tags `meta.key`; the older copy inlined in
    `gatsby-node.js` tags `meta.source`.
- `on_create_node.dfy` (`Enrichment`): the `onCreateNode` hook, as a trace of effects.
  - Internal-type check, sub-plugin and end-user hooks in order.
  - The `http` guard of `createFileNodeFrom` and the two built-in image rules.
  - The copy inlined in `gatsby-node.js` (lines 163-306) is the same code and is covered
    by the same members.
- `schema.dfy` (`Schema`): the `createSchemaCustomization` hook.
  - Baseline declarations, the gated image declarations, then the hook fan-out.
- `sorting.dfy` (`Sorting`): list helpers for the discussions provider.
  - Flattening by `reduce` into a concatenation.
  - A stable sort by integer key, specified as the unique key-ordered, order-keeping
    arrangement of its input.
- `discussions.dfy` (`Discussions`): the discussions sub-plugin.
  - Category-filter choice and one `fetchDiscussions` request per filter.
  - Concatenation, sorting and defaults for the order options.
  - `mapDiscussions`, and the projection into DISCUSSION, LABEL, USER and
    DISCUSSION_CATEGORY lists.
  - The sub-plugin seen as a module the engine walks.

External functions are parameters: `createNodeId`, `createContentDigest`,
`createRemoteFileNode`, `fetchDiscussions` and date parsing (`instant`: epoch
milliseconds of a field value). The user's mapper factory and mappers are parameters too.

## Model

| member | source | states |
|---|---|---|
| JsValues.IndexKeyed | packages/gatsby-source-github-graphql/source-nodes.js:64-67 | Iterating or spreading an array (or string) of n elements sees exactly the keys `"0"` to `"n-1"`, and key `String(i)` holds element i. |
| JsValues.NatToStringInjective | packages/gatsby-source-github-graphql/source-nodes.js:64-67 | Different indices have different property names. |
| NodeTypes.DefaultRegistryShape | packages/gatsby-source-github-graphql/src/github-graphql-defs.js:4-19 | The default registry has exactly 14 roles. Their keys are pairwise distinct, and so are their type names, all strings. |
| NodeTypes.NoOverrideIsDefault | packages/gatsby-source-github-graphql/src/github-graphql-defs.js:38-44 | Resolving with a nullish override (`?? {}`) gives the frozen defaults, the same as an empty override. The API-types table is likewise the defaults. |
| NodeTypes.MergeIdempotent | packages/gatsby-source-github-graphql/src/github-graphql-defs.js:38-40 | Merging the same well-formed override a second time changes nothing. |
| NodeTypes.MergeLookup | packages/gatsby-source-github-graphql/src/github-graphql-defs.js:38-40 | A default role reads as its default when the override does not name it, and as the override merged into the default otherwise. |
| NodeTypes.MergeKeepsKeyOrder | packages/gatsby-source-github-graphql/src/github-graphql-defs.js:38-40 | A merge keeps every default key at its default position, ahead of any keys the override adds. |
| NodeTypes.MergedCoversSource | packages/gatsby-source-github-graphql/src/github-graphql-defs.js:38-40 | Every key the override names is a key of the merged table. |
| NodeTypes.ResolvedKeepsRoles | packages/gatsby-source-github-graphql/src/github-graphql-defs.js:38-40 | Whatever the override, the resolved registry starts with the 14 default roles in default order. |
| NodeTypes.OverrideOneKey | packages/gatsby-source-github-graphql/src/github-graphql-defs.js:38-40 | An override of one existing key changes that key only. No key is added and every other key keeps its value. |
| NodeTypes.RenameUserOnly | packages/gatsby-source-github-graphql/src/github-graphql-defs.js:4-19 | Renaming USER through an override gives USER the new name and leaves the other 13 roles as they are. |
| NodeTypes.ApiTypeConstants | packages/gatsby-source-github-graphql/src/github-graphql-defs.js:23-34 | The API table's DISCUSSION_ORDER_FIELD is {CREATED_AT, UPDATED_AT} and its ORDER_DIRECTION is {ASC, DESC}, in that order. |
| Fragments.GetGithubPlainResolverFields | packages/gatsby-source-github-graphql/src/plugin-github-fragments.js:84-91 | The table's key set is exactly the registry's role set. |
| Fragments.FragmentsFollowRoles | packages/gatsby-source-github-graphql/src/plugin-github-fragments.js:10-88 | When the four selected roles have distinct type names, each of them gets its own selection. A role whose type name is none of theirs gets none. |
| Fragments.DefaultFragments | packages/gatsby-source-github-graphql/src/plugin-github-fragments.js:10-81 | With the default registry, only USER, DISCUSSION, DISCUSSION_CATEGORY and LABEL have a selection. Every other role (REPOSITORY, ISSUE, ...) maps to undefined. |
| Fragments.UserFragmentExtendsActor | packages/gatsby-source-github-graphql/src/plugin-github-fragments.js:2-12 | The USER selection begins with the shared abstract-actor fields. |
| Plugins.ClientFor | packages/gatsby-source-github-graphql/src/github-octokit.js:3-13 | The client is authenticated exactly when the token is a string, and it carries that token. |
| Plugins.TokenChoice | packages/gatsby-source-github-graphql/source-nodes.js:39-42 | A sub-plugin's own token decides its client whenever it is non-nullish, even if it is not a string. Only a nullish own token falls back to the top-level one. |
| Plugins.ForwardedOptions | packages/gatsby-source-github-graphql/source-nodes.js:51-57 | The forwarded options are the plugin's own options with `token` removed and every other key unchanged. |
| Sourcing.Provenance | packages/gatsby-source-github-graphql/source-nodes.js:72-75 | `meta` has exactly the keys `plugin` (the plugin's name) and `key` (the plugin's own `key` option). The legacy copy uses `source` instead of `key`. |
| Sourcing.Tag | packages/gatsby-source-github-graphql/source-nodes.js:66-76 | A tagged record keeps every own field except `meta`. `meta` is set to the provenance, overriding any existing one. |
| Sourcing.TagGroups | packages/gatsby-source-github-graphql/source-nodes.js:65-77 | Tagging succeeds exactly when every returned group is an array. Groups keep their keys and lengths, and element i is the tag of element i. |
| Sourcing.TagGroupsUntagged | packages/gatsby-source-github-graphql/source-nodes.js:65-77 | Whether tagging succeeds does not depend on the provenance. Once `meta` is removed, groups tagged with two different provenances are equal. |
| Sourcing.CallFor | packages/gatsby-source-github-graphql/source-nodes.js:35-57 | A sub-plugin is called with its own options minus `token`, every other own key kept. Its client is authenticated exactly when `customToken ?? token` is a string, and then with that token. |
| Sourcing.Settle | packages/gatsby-source-github-graphql/source-nodes.js:58-79 | A plugin is skipped exactly when its module has no `sourceNodes`. A call that throws aborts the hook with that reason; one that returns `undefined`, and only that, contributes nothing; returned groups are contributed tagged, or abort the hook when a group is not an array. |
| Sourcing.InvokePlugins | packages/gatsby-source-github-graphql/source-nodes.js:34-81 | Plugins run in configuration order. With no failure, the calls and contributions are the per-plugin reference lists. Otherwise the walk stops at the first plugin that fails, and no later plugin is called. |
| Sourcing.Walk | packages/gatsby-source-github-graphql/source-nodes.js:34-81 | For any per-plugin outcome and call, the walk fails exactly when some plugin aborts. Without an abort it yields every plugin's calls and contributions in order. With one, it reports the first abort's error, makes the calls up to and including that plugin and keeps only the earlier contributions. |
| Sourcing.ContributionsOfConcat | packages/gatsby-source-github-graphql/source-nodes.js:34-81 | Contributions are collected plugin by plugin, so a split list contributes the concatenation of its halves' contributions. |
| Sourcing.SilentPluginContributesNothing | packages/gatsby-source-github-graphql/source-nodes.js:59-63 | A plugin without `sourceNodes`, or whose `sourceNodes` returns `undefined`, can be removed without changing the contributions. |
| Sourcing.FanInConcatenates | packages/gatsby-source-github-graphql/source-nodes.js:85-89 | The aggregated list for each type is the concatenation of the plugins' lists for it, in plugin order. A type appears exactly when some plugin returned it. |
| Sourcing.FanInCount | packages/gatsby-source-github-graphql/source-nodes.js:85-89 | The aggregated length of a type is the sum of the contributed lengths. |
| Sourcing.ApplyMappers | packages/gatsby-source-github-graphql/source-nodes.js:91-103 | The mapper pass keeps the set of types, and it fails only with a TypeError. |
| Sourcing.MapperEffect | packages/gatsby-source-github-graphql/source-nodes.js:96-102 | The mapper pass fails exactly when a registered type has a mapper but no data. Otherwise it keeps each type's length and order and leaves unmapped types alone. Each mapped record is the mapper applied once per registry value naming the type. |
| Sourcing.CompositeKeyInjective | packages/gatsby-source-github-graphql/source-nodes.js:146 | For type names without `>`, the composite key `<type> >>> <id>` determines both the type and the id's string form. |
| Sourcing.InternalFor | packages/gatsby-source-github-graphql/source-nodes.js:118-154 | `internal` holds the type and the record's digest. It has the markdown media type and `body` as content exactly for DISCUSSION and ISSUE, and undefined for both otherwise. |
| Sourcing.NodeFor | packages/gatsby-source-github-graphql/source-nodes.js:140-155 | A node request copies the record's fields and sets `githubId` to the record's `id` and `id` to `createNodeId` of the composite key. It also sets `parent: null` and `children: []`. It fails exactly on a nullish record. |
| Sourcing.NodeKeepsRecord | packages/gatsby-source-github-graphql/source-nodes.js:143-148 | A record with an `id` and no other engine-written field can be read back unchanged from its node. |
| Sourcing.Materialize | packages/gatsby-source-github-graphql/source-nodes.js:112-157 | Nodes are requested for registered types only, one per record and in order. The pass fails exactly when a registered type holds a nullish record. |
| Sourcing.Aggregate | packages/gatsby-source-github-graphql/source-nodes.js:83-103 | Without a mapper factory, the aggregate is exactly the fan-in. A failure is a TypeError. |
| Sourcing.SourceNodes | packages/gatsby-source-github-graphql/source-nodes.js:11-157 | If no plugin aborts, the hook makes exactly the reference calls and produces the mapped, materialised fan-in. If one aborts, the calls end with the first aborting plugin and no node is requested. |
| Sourcing.TagThenUntag | packages/gatsby-source-github-graphql/gatsby-node.js:68-80 | Tagging and then removing `meta` gives back the record's own fields without `meta`. |
| Sourcing.EditionsDifferOnlyInMeta | packages/gatsby-source-github-graphql/gatsby-node.js:37-83 | The legacy copy makes the same calls as the current one, and its outcomes are equal once `meta` is removed. |
| Enrichment.CreateFileNodeFrom | packages/gatsby-source-github-graphql/on-create-node.js:27-42 | Nothing happens unless the value is a string starting with `http`. Then exactly one download is requested, from that URL with the node's id as parent. |
| Enrichment.FileFieldNaming | packages/gatsby-source-github-graphql/on-create-node.js:39-41 | A returned file node sets exactly one field, named `fieldName ?? key`, with value the file node's id. A falsy result sets none. |
| Enrichment.SubPluginHooks | packages/gatsby-source-github-graphql/on-create-node.js:45-69 | The loop fails exactly when some plugin has no module. Every effect is a sub-plugin hook call carrying the node's internal-type flag. |
| Enrichment.SubPluginHooksInOrder | packages/gatsby-source-github-graphql/on-create-node.js:45-69 | Every plugin with the hook is called once, in configuration order, with its options minus `token`. |
| Enrichment.ImageRule | packages/gatsby-source-github-graphql/on-create-node.js:96-116 | A rule acts only on nodes of its role's type whose flag is not `false` and that have the key. It then downloads into `<key>SharpOptimized`. |
| Enrichment.ImageRules | packages/gatsby-source-github-graphql/on-create-node.js:118-133 | The built-in rules call no hook. |
| Enrichment.OnCreateNodeWith | packages/gatsby-source-github-graphql/on-create-node.js:19-94 | A missing or null `plugins` list throws before anything happens. A non-internal node gets hook calls only. Every hook sees the right internal-type flag. Internal nodes also get the image-rule effects, and every effect that is not a hook call comes from those rules. |
| Enrichment.DisabledFlagsDeriveNothing | packages/gatsby-source-github-graphql/on-create-node.js:94-133 | With both image flags exactly `false`, the hook downloads nothing and creates no field: every effect is a hook call. |
| Enrichment.HookOrder | packages/gatsby-source-github-graphql/on-create-node.js:44-92 | Hooks run sub-plugins first, in configuration order, then the end user's hook last, each with options minus `token`. |
| Enrichment.RoleValueIsRegistered | packages/gatsby-source-github-graphql/on-create-node.js:19-25 | A type name stored under any role counts as internal. |
| Enrichment.AvatarRule | packages/gatsby-source-github-graphql/on-create-node.js:104-113 | A USER node with an `http` avatar URL and the flag not `false` has that URL downloaded into `avatarUrlSharpOptimized`. |
| Enrichment.OpenGraphRule | packages/gatsby-source-github-graphql/on-create-node.js:96-133 | For a REPOSITORY node with a remote `openGraphImageUrl`, unless the flag is `false`, the image rules download it and, when a file node results, add `openGraphImageUrlSharpOptimized`. |
| Enrichment.AvatarDerived | packages/gatsby-source-github-graphql/on-create-node.js:94-133 | In the whole hook, such a USER node's avatar download is among the effects. |
| Enrichment.PresentNonUrlIgnored | packages/gatsby-source-github-graphql/on-create-node.js:106-114 | A present key whose value is not an `http` string passes the `key in node` check but derives nothing. |
| Enrichment.OnCreateNode | packages/gatsby-source-github-graphql/on-create-node.js:8-25 | The whole hook throws on a missing or null `plugins` list. For a type outside the resolved registry, it only calls hooks. |
| Schema.BaselineLines | packages/gatsby-source-github-graphql/create-schema-customization.js:12-17 | The first `createTypes` text splits at `\n` into exactly one `type T implements Node { githubId: String! }` line per registry value, in registry order. |
| Schema.TypeDefinitions | packages/gatsby-source-github-graphql/create-schema-customization.js:12-30 | The baseline comes first. A second call is made exactly when the avatar flag is not `false`, and it declares the USER and REPOSITORY image fields. |
| Schema.RepositoryFlagIgnored | packages/gatsby-source-github-graphql/create-schema-customization.js:19-30 | Only the avatar flag matters to the declarations. The repository flag is never consulted. |
| Schema.CreateTypesCount | packages/gatsby-source-github-graphql/create-schema-customization.js:12-30 | The engine makes 1 or 2 `createTypes` calls, and every later effect is a hook call. |
| Schema.SubPluginSchemaHooks | packages/gatsby-source-github-graphql/create-schema-customization.js:32-51 | The loop produces at most one sub-plugin hook call per plugin. |
| Schema.SchemaHooksFollowList | packages/gatsby-source-github-graphql/create-schema-customization.js:32-51 | Every plugin with the hook is called once, in configuration order, with options minus `token`. Plugins without a module are passed over. |
| Schema.CreateSchemaCustomizationWith | packages/gatsby-source-github-graphql/create-schema-customization.js:4-67 | The engine's own declarations come first. It fails exactly when `plugins` is null. When the end-user hook is a function it is called last, with options minus `token`. |
| Schema.SchemaHookOrder | packages/gatsby-source-github-graphql/create-schema-customization.js:32-67 | With a plugins list that is not null: the engine's declarations, then every sub-plugin hook once in configuration order with options minus `token`, then the end-user hook last exactly when it is a function; otherwise no end-user call. |
| Schema.CreateSchemaCustomization | packages/gatsby-source-github-graphql/create-schema-customization.js:4-17 | The first effect is the baseline for the resolved registry. The hook fails exactly when `plugins` is null. |
| Sorting.ReduceIsFlatten | packages/gatsby-source-github-graphql-discussions/index.js:39-52 | The `reduce` with `[...previous, ...current]` is the plain concatenation, in list order. |
| Sorting.FlattenLength | packages/gatsby-source-github-graphql-discussions/index.js:39-52 | The concatenation is as long as the lists together. |
| Sorting.SortBy | packages/gatsby-source-github-graphql-discussions/index.js:53 | The sort's result is a permutation of its input. |
| Sorting.SortBySorted | packages/gatsby-source-github-graphql-discussions/index.js:53 | The sort's result is ordered by key. |
| Sorting.SortStable | packages/gatsby-source-github-graphql-discussions/index.js:53 | The sort is stable: the elements of each key keep their input order. |
| Sorting.SortIsTheStableArrangement | packages/gatsby-source-github-graphql-discussions/index.js:53 | Any key-ordered list that keeps each key's elements in input order equals the sort's result. |
| Discussions.ApiConstant | packages/gatsby-source-github-graphql-discussions/index.js:17-22 | Reading through a missing API group throws. A present string constant reads as that string. |
| Discussions.EngineApiConstants | packages/gatsby-source-github-graphql-discussions/index.js:76-79 | Under the engine's API types, the four order constants read as their own names. |
| Discussions.Filters | packages/gatsby-source-github-graphql-discussions/index.js:32-37 | Non-nullish `categoryIds` give one id filter per element. Otherwise non-nullish `categorySlugs` give one slug filter per element. Otherwise there is exactly one empty filter. A non-array list throws. |
| Discussions.FilterPrecedence | packages/gatsby-source-github-graphql-discussions/index.js:32-37 | Once `categoryIds` is set the slugs never matter. An unfiltered fetch happens exactly when both are nullish. |
| Discussions.RequestsFor | packages/gatsby-source-github-graphql-discussions/index.js:39-50 | There is one request per filter, in filter order. Each has `resultsLimit = maxDiscussionsCount`, the caller's order options and the shared client. |
| Discussions.EmptyCategoryIdsFetchNothing | packages/gatsby-source-github-graphql-discussions/index.js:32-52 | An empty, non-null `categoryIds` makes no request and yields no discussion. |
| Discussions.CompareField | packages/gatsby-source-github-graphql-discussions/index.js:17-20 | The compared field is `createdAt` exactly when `orderByField` equals CREATED_AT, and `updatedAt` otherwise. |
| Discussions.SortKeyFor | packages/gatsby-source-github-graphql-discussions/index.js:17-30 | The comparator can be built exactly when both API groups it reads exist. It compares `createdAt` exactly when `orderByField` is the API's CREATED_AT, and sorts descending exactly when `orderByDirection` is the API's DESC. |
| Discussions.DirectionDecidesOrder | packages/gatsby-source-github-graphql-discussions/index.js:22-30 | Of two discussions whose compared component differs, the later sorts first exactly when `orderByDirection` is the API's DESC, under either comparator. |
| Discussions.MillisecondKey | packages/gatsby-source-github-graphql-discussions/index.js:24-30 | The source's key is only the millisecond component (0-999), signed by direction. |
| Discussions.InstantKey | packages/gatsby-source-github-graphql-discussions/index.js:24-30 | The chronological key is strictly monotone in the instant, reversed when descending, and equal for equal instants. |
| Discussions.InstantKeyChronological | packages/gatsby-source-github-graphql-discussions/index.js:24-30 | A list ordered by the instant key is in chronological order, or reverse order when descending. |
| Discussions.MillisecondOrderInverts | packages/gatsby-source-github-graphql-discussions/index.js:24-30 | With the source's comparator, discussions 999 ms and 1000 ms after the epoch come out in reverse order from an ascending sort. |
| Discussions.InstantOrderHolds | packages/gatsby-source-github-graphql-discussions/index.js:24-30 | With the chronological key, the same two discussions stay in order. |
| Discussions.SortDiscussions | packages/gatsby-source-github-graphql-discussions/index.js:53 | The sort throws exactly when a `null` is among two or more non-`undefined` elements. Otherwise it permutes its input, sorts the defined elements stably by key and puts every `undefined` last. |
| Discussions.SortDiscussionsUnique | packages/gatsby-source-github-graphql-discussions/index.js:53 | The sorted prefix is the one stable, key-ordered arrangement of the defined elements. |
| Discussions.Gather | packages/gatsby-source-github-graphql-discussions/index.js:39-55 | The result is a permutation of the concatenated responses, with their total length, and its defined prefix is sorted. It fails exactly on a `null` that meets the comparator. |
| Discussions.GetRepositoryDiscussions | packages/gatsby-source-github-graphql-discussions/index.js:3-56 | A failed API lookup or filter choice fails the call. Otherwise the requests follow the filters and the result is the sorted concatenation. |
| Discussions.DiscussionOptions | packages/gatsby-source-github-graphql-discussions/index.js:76-81 | The options are the defaults DESC and CREATED_AT plus the caller's options. Every caller option wins, and absent ones take the defaults. |
| Discussions.DefaultOrderIsCreatedAtDescending | packages/gatsby-source-github-graphql-discussions/index.js:76-81 | Under the engine's API types, without the caller's own order options, the sort compares `createdAt` descending. As written that key is the negated millisecond-of-second component; with the corrected comparator it is the negated instant. |
| Discussions.MapDiscussions | packages/gatsby-source-github-graphql-discussions/index.js:92-94 | The mapper is applied once per discussion and the count is kept. Without a mapper the list is unchanged. |
| Discussions.Project | packages/gatsby-source-github-graphql-discussions/index.js:96-107 | The projection fails exactly when a discussion is nullish or its labels are not iterable. Otherwise it returns arrays under the four role type names. |
| Discussions.ProjectionShape | packages/gatsby-source-github-graphql-discussions/index.js:96-107 | With distinct type names: DISCUSSION is the mapped list and LABEL the concatenated labels in order. USER and DISCUSSION_CATEGORY hold one entry per discussion, duplicates kept. |
| Discussions.SourceDiscussions | packages/gatsby-source-github-graphql-discussions/index.js:58-108 | On success, the plugin returns arrays under exactly the four role type names. A missing ORDER_DIRECTION group fails it. The comparator is a parameter: `MillisecondsOfSecond` is the code as written. |
| Discussions.SourceDiscussionsContent | packages/gatsby-source-github-graphql-discussions/index.js:58-108 | Failed option resolution or fetching fails the plugin. Otherwise it requests exactly the filters' requests, keeps every fetched discussion (as a multiset), succeeds exactly when the mapped list is projectable, and returns DISCUSSION as the mapped list, LABEL as its concatenated labels and USER/DISCUSSION_CATEGORY as each discussion's author/category. |
| Discussions.CorrectedNewestFirst | packages/gatsby-source-github-graphql-discussions/index.js:24-81 | With the corrected comparator and default order options, the DISCUSSION list's prefix of discussions other than `undefined` is in non-increasing `createdAt` order (newest first). |
| Discussions.DiscussionsContribute | packages/gatsby-source-github-graphql-discussions/index.js:96-107 | Walked by the engine, the plugin contributes exactly when its `sourceNodes` succeeds (for either comparator). Then it contributes one group per returned key, of the returned length. |

## Left out

- Asynchrony is modelled as sequential calls in source order.
  - `Promise.all` over the fetches.
  - The un-awaited hook calls in `onCreateNode` and in the sub-plugin loop of
    `createSchemaCustomization`.
- Sourcing.Materialize: returns the node requests per type as a map, so the order of
  `createNode` calls across types is not modelled.
- Sourcing.Materialize: an awaited `createNode` that rejects (which rejects `sourceNodes`) is
  not modelled; node creation is recorded as a request and always succeeds.
- Sourcing.Materialize: a nullish record fails the whole pass. The nodes created before the
  throw are not modelled.
- Sourcing.Aggregate: a `createCustomMapper` factory or a mapper that throws (which aborts
  `sourceNodes`) is not modelled; factories and mappers are total functions.
- Plugins.EngineOptions: the end-user hooks' options are modelled as the plain-data settings
  minus `token`. The plugin list, `pluginNodeTypes` and function entries they also receive
  are not modelled.
- JsValues.Spread: a string is spread by Dafny characters (code points); JavaScript indexes
  UTF-16 code units, so strings outside the Basic Multilingual Plane split differently.
- Sourcing.MapAll: the mapper receives only the record. The index and array that
  `Array.prototype.map` also passes are not modelled.
- Sourcing.Aggregate: a mapper factory is a function to a map of function entries. A
  factory that returns a nullish value, or entries that are not functions, are not modelled.
- `mergeDeep` and `removeKey` come from a utilities module that is not part of this model.
  - `mergeDeep` is taken to be a leaf-override merge: default keys keep their position and
    override-only keys are appended (adopted, not ignored).
  - `removeKey` is taken to copy the object without the key.
- Plugins.OwnOptions: an absent sub-plugin `pluginOptions` reads as `{}` in every hook.
  `onCreateNode` and `createSchemaCustomization` pass it to `removeKey` unguarded, and what
  `removeKey(undefined, ...)` does is not modelled.
- Sourcing.InternalFor: the media-types module is not part of this model.
  `MEDIA_TYPES.MARKDOWN` is taken to be the string `text/markdown`.
- `src/github-octokit.js` is reduced to the choice of client (`Plugins.ClientFor`). The
  GraphQL transport is not modelled.
- The options schemas (`plugin-options-schema.js`, `pluginOptionsSchema` in
  `gatsby-node.js`) are declarative validation and are not modelled.
- The text of the GraphQL selections and of the image and discussions type definitions is
  treated as opaque. Selections are lists of field lines and declarations are effects.
- `onCreateNode` and `createSchemaCustomization` take the top-level options as given. A
  nullish top-level options object, on which those hooks throw, is not modelled.
- What a hook does once it is called is not modelled. That includes a throw from inside a
  sub-plugin or end-user `onCreateNode`/`createSchemaCustomization`. Only the invocation is
  recorded. A sub-plugin `sourceNodes` that throws or rejects is modelled (`Failed`).
- The discussions sub-plugin's `onCreateNode` (which returns at once) and its
  `createSchemaCustomization` (one `createTypes` call with link declarations) are
  represented only by the module flags in `Discussions.DiscussionsModule`.
- Enrichment.FileDeriver: a `createRemoteFileNode` that rejects (which rejects `onCreateNode`
  before the REPOSITORY rule runs) is not modelled; a download yields a file node id or nothing.
- Discussions.Fetcher: a `fetchDiscussions` call that rejects, and pagination inside it, are
  not modelled. Each request yields a list of discussions.
- Discussions.TimestampOf: date parsing is a total function to epoch milliseconds.
  Invalid dates (`NaN`), and the comparator inconsistencies they cause, are not modelled.
- Discussions.ApiConstant: a constant that is itself an object reads as `undefined`. Its
  identity under `===` is not modelled.
- Discussions.MapDiscussions: `mapDiscussions` is modelled as an optional function. A
  non-nullish option that is not a function (the call would throw) is not modelled.
- Discussions.Read: property reads on arrays and strings give `undefined` for the keys read
  here. Inherited properties are not modelled.

## Findings

| source | as written | input that shows it | evidently intended | confidence | as-written member | corrected member |
|---|---|---|---|---|---|---|
| packages/gatsby-source-github-graphql-discussions/index.js:24-30 | The comparator subtracts `new Date(x).getMilliseconds()`, the 0-999 millisecond component, not the whole instant. | Two discussions created 999 ms and 1000 ms after the epoch, sorted ascending, come out as [1000 ms, 999 ms]. | Compare the whole instant (`getTime()`), so the sort is chronological. | not executed | Discussions.MillisecondOrderInverts | Discussions.CorrectedNewestFirst |

The discussions model keeps both comparators (`Discussions.Ordering`).
`Discussions.GetRepositoryDiscussions`, `Discussions.SourceDiscussions` and
`Discussions.DiscussionsModule` take the comparator as a parameter: `MillisecondsOfSecond`
is the code as written, `FullInstant` the corrected comparator.
`Discussions.CorrectedNewestFirst` proves the corrected plugin's default order newest first.

=== FILE: discussions.dfy ===
/**
 The discussions sub-plugin: it fetches a repository's GitHub discussions once per
 category filter (or once unfiltered), concatenates and sorts them by creation or update
 time, lets the end user map each discussion, and returns them together with their
 labels, authors and categories, keyed by the registry's type names so the engine turns
 each list into nodes of that type.

 `fetchDiscussions` (a paginated GraphQL query) and date parsing are parameters: a
 `Fetcher` from one request to the discussions it yields, and `instant`, the epoch
 milliseconds `new Date(v)` denotes for a field value `v`.
 */
module Discussions {
  import opened JsValues
  import opened NodeTypes
  import opened Fragments
  import opened Plugins
  import opened Sorting
  import Sourcing

  /** `v[k]` on a value that is not `null` or `undefined`: an object's field, `undefined` for
      any other value (none of them has the keys read here). */
  function Read(v: Value, k: string): (r: Value)
    ensures v.Rec? ==> r == Get(v.fields, k)
    ensures !v.Rec? ==> r == Undefined
  {
    if v.Rec? then Get(v.fields, k) else Undefined
  }

  // ---------------------------------------------------------------------------
  // GitHub API constants

  /** `githubApiTypes.GROUP.NAME`: reading through a missing group throws; a group that is a
      string has no such property. */
  function ApiConstant(api: Tree, group: string, name: string): (r: Result<Value>)
    ensures r.Err? <==> RoleValue(api, group).None?
    ensures r.Ok? ==> r.value.Undefined? || r.value.Str?
    ensures forall fs, s :: (RoleValue(api, group) == Some(Obj(fs)) && Find(fs, name) == Some(Leaf(s))
      ==> r == Ok(Str(s)))
  {
    match RoleValue(api, group)
    case None => Err(TypeError("cannot read properties of undefined"))
    case Some(Leaf(_)) => Ok(Undefined)
    case Some(Obj(fs)) =>
      match Find(fs, name)
      case Some(Leaf(s)) => Ok(Str(s))
      case _ => Ok(Undefined)
  }

  /** The API types the engine hands every sub-plugin give the two constants the provider
      reads their own names. */
  lemma EngineApiConstants()
    ensures ApiConstant(GetGithubApiTypes(None), "DISCUSSION_ORDER_FIELD", "CREATED_AT") == Ok(Str("CREATED_AT"))
    ensures ApiConstant(GetGithubApiTypes(None), "DISCUSSION_ORDER_FIELD", "UPDATED_AT") == Ok(Str("UPDATED_AT"))
    ensures ApiConstant(GetGithubApiTypes(None), "ORDER_DIRECTION", "DESC") == Ok(Str("DESC"))
    ensures ApiConstant(GetGithubApiTypes(None), "ORDER_DIRECTION", "ASC") == Ok(Str("ASC"))
  {
    EngineFieldConstants();
    EngineDirectionConstants();
  }

  lemma EngineFieldConstants()
    ensures ApiConstant(GetGithubApiTypes(None), "DISCUSSION_ORDER_FIELD", "CREATED_AT") == Ok(Str("CREATED_AT"))
    ensures ApiConstant(GetGithubApiTypes(None), "DISCUSSION_ORDER_FIELD", "UPDATED_AT") == Ok(Str("UPDATED_AT"))
  {
    ApiTypeConstants();
    var field := [Field("CREATED_AT", Leaf("CREATED_AT")), Field("UPDATED_AT", Leaf("UPDATED_AT"))];
    assert Find(field, "CREATED_AT") == Some(Leaf("CREATED_AT"));
    assert Find(field, "UPDATED_AT") == Some(Leaf("UPDATED_AT"));
  }

  lemma EngineDirectionConstants()
    ensures ApiConstant(GetGithubApiTypes(None), "ORDER_DIRECTION", "DESC") == Ok(Str("DESC"))
    ensures ApiConstant(GetGithubApiTypes(None), "ORDER_DIRECTION", "ASC") == Ok(Str("ASC"))
  {
    ApiTypeConstants();
    var direction := [Field("ASC", Leaf("ASC")), Field("DESC", Leaf("DESC"))];
    assert Find(direction, "ASC") == Some(Leaf("ASC"));
    assert Find(direction, "DESC") == Some(Leaf("DESC"));
  }

  // ---------------------------------------------------------------------------
  // Filters and requests

  /** What one fetch is narrowed to: `{}`, `{ categoryId }` or `{ categorySlug }`. */
  datatype Filter = NoFilter | ByCategoryId(categoryId: Value) | ByCategorySlug(categorySlug: Value)

  /** `categoryIds != null ? categoryIds.map(...) : categorySlugs != null ? categorySlugs.map(...)
      : [{}]`; `.map` on anything but an array throws. */
  function Filters(categoryIds: Value, categorySlugs: Value): (r: Result<seq<Filter>>)
    ensures r.Err? ==> r.error.TypeError?
    ensures !IsNullish(categoryIds) ==> (r.Ok? <==> categoryIds.Arr?)
    ensures IsNullish(categoryIds) && !IsNullish(categorySlugs) ==> (r.Ok? <==> categorySlugs.Arr?)
    ensures IsNullish(categoryIds) && IsNullish(categorySlugs) ==> r == Ok([NoFilter])
    ensures r.Ok? && categoryIds.Arr? ==>
      |r.value| == |categoryIds.items| &&
      forall i :: 0 <= i < |r.value| ==> r.value[i] == ByCategoryId(categoryIds.items[i])
    ensures r.Ok? && IsNullish(categoryIds) && categorySlugs.Arr? ==>
      |r.value| == |categorySlugs.items| &&
      forall i :: 0 <= i < |r.value| ==> r.value[i] == ByCategorySlug(categorySlugs.items[i])
  {
    if !IsNullish(categoryIds) then
      if categoryIds.Arr? then Ok(seq(|categoryIds.items|, i requires 0 <= i < |categoryIds.items| => ByCategoryId(categoryIds.items[i])))
      else Err(TypeError("categoryIds.map is not a function"))
    else if !IsNullish(categorySlugs) then
      if categorySlugs.Arr? then Ok(seq(|categorySlugs.items|, i requires 0 <= i < |categorySlugs.items| => ByCategorySlug(categorySlugs.items[i])))
      else Err(TypeError("categorySlugs.map is not a function"))
    else Ok([NoFilter])
  }

  /** Category ids take precedence: once they are set, the slugs are never looked at, and
      every filter is an id filter; an unfiltered fetch happens only when neither is set. */
  lemma FilterPrecedence(categoryIds: Value, slugs1: Value, slugs2: Value)
    ensures !IsNullish(categoryIds) ==> Filters(categoryIds, slugs1) == Filters(categoryIds, slugs2)
    ensures forall f :: Filters(categoryIds, slugs1).Ok? && f in Filters(categoryIds, slugs1).value ==>
      (f.ByCategoryId? <==> !IsNullish(categoryIds)) &&
      (f.NoFilter? <==> IsNullish(categoryIds) && IsNullish(slugs1))
  {
  }

  /** The arguments of one `fetchDiscussions(owner, repo, {...})` call. */
  datatype FetchRequest = FetchRequest(
    owner: Value,
    repo: Value,
    resultsLimit: Value,
    orderByDirection: Value,
    orderByField: Value,
    filter: Filter,
    graphql: Client,
    githubPlainResolverFields: FragmentTable)

  /** `fetchDiscussions`, outside the model: the discussions one request yields. */
  type Fetcher = FetchRequest -> seq<Value>

  /** One request per filter, in filter order, all sharing the caller's limit and order. */
  function RequestsFor(args: Record, ctx: SourceContext, filters: seq<Filter>): (rs: seq<FetchRequest>)
    ensures |rs| == |filters|
    ensures forall i :: 0 <= i < |rs| ==>
      && rs[i].filter == filters[i]
      && rs[i].resultsLimit == Get(args, "maxDiscussionsCount")
      && rs[i].owner == Get(args, "owner") && rs[i].repo == Get(args, "repo")
      && rs[i].orderByDirection == Get(args, "orderByDirection")
      && rs[i].orderByField == Get(args, "orderByField")
      && rs[i].graphql == ctx.graphql
      && rs[i].githubPlainResolverFields == ctx.githubPlainResolverFields
  {
    seq(|filters|, i requires 0 <= i < |filters| =>
      FetchRequest(Get(args, "owner"), Get(args, "repo"), Get(args, "maxDiscussionsCount"),
                   Get(args, "orderByDirection"), Get(args, "orderByField"), filters[i],
                   ctx.graphql, ctx.githubPlainResolverFields))
  }

  /** The per-request results, in request order. */
  function Responses(fetch: Fetcher, requests: seq<FetchRequest>): (rs: seq<seq<Value>>)
    ensures |rs| == |requests|
    ensures forall i :: 0 <= i < |rs| ==> rs[i] == fetch(requests[i])
  {
    seq(|requests|, i requires 0 <= i < |requests| => fetch(requests[i]))
  }

  // ---------------------------------------------------------------------------
  // Sort keys

  /** Which comparator the sort uses: the one the source writes, comparing the
      millisecond-of-second component of each timestamp, or the full instant. */
  datatype Ordering = MillisecondsOfSecond | FullInstant

  /** `new Date(d[field])` as epoch milliseconds. */
  function TimestampOf(d: Value, field: string, instant: Value -> int): int {
    instant(Read(d, field))
  }

  /** The key the source's comparator subtracts: `getMilliseconds()`, negated for a
      descending sort (`z - a` orders by the negated key ascending). */
  function MillisecondKey(instant: Value -> int, field: string, desc: bool): (key: Value -> int)
    ensures forall v :: if desc then -999 <= key(v) <= 0 else 0 <= key(v) <= 999
    ensures forall v :: key(v) == (if desc then -1 else 1) * (TimestampOf(v, field, instant) % 1000)
  {
    v => var ms := TimestampOf(v, field, instant) % 1000; if desc then -ms else ms
  }

  /** The key a chronological sort needs: the whole instant, negated for a descending sort. */
  function InstantKey(instant: Value -> int, field: string, desc: bool): (key: Value -> int)
    ensures forall v, w :: TimestampOf(v, field, instant) < TimestampOf(w, field, instant) ==>
      if desc then key(v) > key(w) else key(v) < key(w)
    ensures forall v, w :: TimestampOf(v, field, instant) == TimestampOf(w, field, instant) ==> key(v) == key(w)
  {
    v => if desc then -TimestampOf(v, field, instant) else TimestampOf(v, field, instant)
  }

  function SortKey(ordering: Ordering, instant: Value -> int, field: string, desc: bool): Value -> int {
    match ordering
    case MillisecondsOfSecond => MillisecondKey(instant, field, desc)
    case FullInstant => InstantKey(instant, field, desc)
  }

  /** A list ordered by `InstantKey` is in chronological order (newest first when
      descending). */
  lemma InstantKeyChronological(s: seq<Value>, instant: Value -> int, field: string, desc: bool)
    requires SortedBy(s, InstantKey(instant, field, desc))
    ensures forall i, j :: 0 <= i < j < |s| ==>
      if desc then TimestampOf(s[i], field, instant) >= TimestampOf(s[j], field, instant)
      else TimestampOf(s[i], field, instant) <= TimestampOf(s[j], field, instant)
  {
    var key := InstantKey(instant, field, desc);
    forall i, j | 0 <= i < j < |s|
      ensures if desc then TimestampOf(s[i], field, instant) >= TimestampOf(s[j], field, instant)
              else TimestampOf(s[i], field, instant) <= TimestampOf(s[j], field, instant)
    {
      assert key(s[i]) <= key(s[j]);
    }
  }

  /** The source's comparator: two discussions a millisecond apart across a second boundary,
      999 ms and 1000 ms after the epoch, come out in reverse chronological order from an
      ascending sort, because the later one has millisecond component 0. */
  lemma MillisecondOrderInverts(instant: Value -> int, earlier: Value, later: Value)
    requires TimestampOf(earlier, "createdAt", instant) == 999
    requires TimestampOf(later, "createdAt", instant) == 1000
    ensures SortBy([earlier, later], MillisecondKey(instant, "createdAt", false)) == [later, earlier]
  {
    var key := MillisecondKey(instant, "createdAt", false);
    assert key(earlier) == 999 && key(later) == 0;
    assert [earlier, later][1..] == [later];
    assert SortBy([later], key) == [later] by {
      assert [later][1..] == [];
    }
  }

  /** With the full instant the same two discussions stay in chronological order. */
  lemma InstantOrderHolds(instant: Value -> int, earlier: Value, later: Value)
    requires TimestampOf(earlier, "createdAt", instant) == 999
    requires TimestampOf(later, "createdAt", instant) == 1000
    ensures SortBy([earlier, later], InstantKey(instant, "createdAt", false)) == [earlier, later]
  {
    var key := InstantKey(instant, "createdAt", false);
    assert key(earlier) == 999 && key(later) == 1000;
    assert [earlier, later][1..] == [later];
    assert SortBy([later], key) == [later] by {
      assert [later][1..] == [];
    }
  }

  // ---------------------------------------------------------------------------
  // Array.prototype.sort

  /** The elements other than `undefined`, in order. */
  function DefinedPart(s: seq<Value>): (r: seq<Value>)
    ensures forall v :: v in r <==> v in s && v != Undefined
    decreases |s|
  {
    if |s| == 0 then [] else (if s[0].Undefined? then [] else [s[0]]) + DefinedPart(s[1..])
  }

  /** The `undefined` elements. */
  function UndefinedPart(s: seq<Value>): (r: seq<Value>)
    ensures forall i :: 0 <= i < |r| ==> r[i] == Undefined
    decreases |s|
  {
    if |s| == 0 then [] else (if s[0].Undefined? then [s[0]] else []) + UndefinedPart(s[1..])
  }

  lemma {:induction false} PartsSplit(s: seq<Value>)
    ensures multiset(DefinedPart(s)) + multiset(UndefinedPart(s)) == multiset(s)
    decreases |s|
  {
    if |s| != 0 {
      PartsSplit(s[1..]);
      assert s == [s[0]] + s[1..];
    }
  }

  /** `discussions.sort(compareFn)`: `undefined` elements go last without being compared;
      the rest are sorted stably by the comparator's key. With two or more of them, every one
      meets the comparator, and reading the timestamp of a `null` one throws. */
  function SortDiscussions(s: seq<Value>, key: Value -> int): (r: Result<seq<Value>>)
    ensures r.Err? <==> Null in s && |DefinedPart(s)| >= 2
    ensures r.Err? ==> r.error.TypeError?
    ensures r.Ok? ==> multiset(r.value) == multiset(s)
    ensures r.Ok? ==>
      var n := |DefinedPart(s)|;
      && n <= |r.value|
      && SortedBy(r.value[..n], key)
      && (forall k :: WithKey(r.value[..n], key, k) == WithKey(DefinedPart(s), key, k))
      && forall i :: n <= i < |r.value| ==> r.value[i] == Undefined
  {
    var defined := DefinedPart(s);
    if Null in defined && |defined| >= 2 then Err(TypeError("cannot read properties of null"))
    else
      var sorted := SortBy(defined, key);
      PartsSplit(s);
      SortBySorted(defined, key);
      assert (sorted + UndefinedPart(s))[..|defined|] == sorted;
      assert forall k :: WithKey(sorted, key, k) == WithKey(defined, key, k) by {
        forall k ensures WithKey(sorted, key, k) == WithKey(defined, key, k) {
          SortStable(defined, key, k);
        }
      }
      Ok(sorted + UndefinedPart(s))
  }

  /** The sort's defined prefix is the one stable, ordered arrangement of the defined
      elements: any list with those two properties is that prefix. */
  lemma SortDiscussionsUnique(s: seq<Value>, key: Value -> int, t: seq<Value>)
    requires SortDiscussions(s, key).Ok?
    requires SortedBy(t, key)
    requires forall k :: WithKey(t, key, k) == WithKey(DefinedPart(s), key, k)
    ensures SortDiscussions(s, key).value == t + UndefinedPart(s)
  {
    SortIsTheStableArrangement(DefinedPart(s), t, key);
  }

  // ---------------------------------------------------------------------------
  // getRepositoryDiscussions

  /** `compareField`: `createdAt` exactly when the requested field is the API's CREATED_AT. */
  function CompareField(args: Record, createdAt: Value): (field: string)
    ensures field == "createdAt" <==> Get(args, "orderByField") == createdAt
    ensures field == "createdAt" || field == "updatedAt"
  {
    if Get(args, "orderByField") == createdAt then "createdAt" else "updatedAt"
  }

  /** The discussions of every filter, in filter order, and the requests made for them. */
  datatype Fetched = Fetched(requests: seq<FetchRequest>, discussions: seq<Value>)

  /** The comparator `getRepositoryDiscussions` builds from its arguments, as a sort key:
      the compared field and direction come from comparing the arguments with the API's
      CREATED_AT and DESC constants. */
  function SortKeyFor(args: Record, api: Tree, instant: Value -> int, ordering: Ordering): (r: Result<Value -> int>)
    ensures r.Err? <==>
      ApiConstant(api, "DISCUSSION_ORDER_FIELD", "CREATED_AT").Err? || ApiConstant(api, "ORDER_DIRECTION", "DESC").Err?
    ensures r.Ok? ==>
      r.value == SortKey(ordering, instant,
                         CompareField(args, ApiConstant(api, "DISCUSSION_ORDER_FIELD", "CREATED_AT").value),
                         Get(args, "orderByDirection") == ApiConstant(api, "ORDER_DIRECTION", "DESC").value)
  {
    match ApiConstant(api, "DISCUSSION_ORDER_FIELD", "CREATED_AT")
    case Err(e) => Err(e)
    case Ok(createdAt) =>
      match ApiConstant(api, "ORDER_DIRECTION", "DESC")
      case Err(e) => Err(e)
      case Ok(descConstant) =>
        Ok(SortKey(ordering, instant, CompareField(args, createdAt), Get(args, "orderByDirection") == descConstant))
  }

  /** The sort is descending exactly when `orderByDirection` is the API's DESC constant: of
      two discussions whose compared component differs (the millisecond-of-second part as
      written, the whole instant when corrected), the later one sorts first exactly then. */
  lemma DirectionDecidesOrder(args: Record, api: Tree, instant: Value -> int, ordering: Ordering,
                              earlier: Value, later: Value)
    requires SortKeyFor(args, api, instant, ordering).Ok?
    requires var field := CompareField(args, ApiConstant(api, "DISCUSSION_ORDER_FIELD", "CREATED_AT").value);
      match ordering
      case MillisecondsOfSecond =>
        TimestampOf(earlier, field, instant) % 1000 < TimestampOf(later, field, instant) % 1000
      case FullInstant =>
        TimestampOf(earlier, field, instant) < TimestampOf(later, field, instant)
    ensures var key := SortKeyFor(args, api, instant, ordering).value;
      key(earlier) > key(later) <==>
        Get(args, "orderByDirection") == ApiConstant(api, "ORDER_DIRECTION", "DESC").value
  {
    var field := CompareField(args, ApiConstant(api, "DISCUSSION_ORDER_FIELD", "CREATED_AT").value);
    var desc := Get(args, "orderByDirection") == ApiConstant(api, "ORDER_DIRECTION", "DESC").value;
    var key := SortKeyFor(args, api, instant, ordering).value;
    assert key == SortKey(ordering, instant, field, desc);
    if ordering == MillisecondsOfSecond {
      assert key(earlier) == (if desc then -1 else 1) * (TimestampOf(earlier, field, instant) % 1000);
      assert key(later) == (if desc then -1 else 1) * (TimestampOf(later, field, instant) % 1000);
    }
  }

  /** Runs the requests, concatenates their results in request order and sorts them. */
  function Gather(requests: seq<FetchRequest>, fetch: Fetcher, key: Value -> int): (r: Result<Fetched>)
    ensures var fetched := Flatten(Responses(fetch, requests));
      && (r.Err? <==> Null in fetched && |DefinedPart(fetched)| >= 2)
      && (r.Ok? ==>
            && r.value.requests == requests
            && |r.value.discussions| == SumLengths(Responses(fetch, requests))
            && multiset(r.value.discussions) == multiset(fetched)
            && |DefinedPart(fetched)| <= |r.value.discussions|
            && SortedBy(r.value.discussions[..|DefinedPart(fetched)|], key))
  {
    var responses := Responses(fetch, requests);
    var fetched := Flatten(responses);
    ReduceIsFlatten(responses);
    FlattenLength(responses);
    var sorted := SortDiscussions(ReduceConcat(responses), key);
    assert sorted == SortDiscussions(fetched, key);
    if sorted.Err? then Err(sorted.error) else Ok(Fetched(requests, sorted.value))
  }

  /** `getRepositoryDiscussions(args)` with the sort key chosen by `ordering`. */
  function GetRepositoryDiscussions(args: Record, ctx: SourceContext, fetch: Fetcher,
                                    instant: Value -> int, ordering: Ordering): (r: Result<Fetched>)
    ensures SortKeyFor(args, ctx.githubApiTypes, instant, ordering).Err? ==> r.Err?
    ensures Filters(Get(args, "categoryIds"), Get(args, "categorySlugs")).Err? ==> r.Err?
    ensures SortKeyFor(args, ctx.githubApiTypes, instant, ordering).Ok? &&
            Filters(Get(args, "categoryIds"), Get(args, "categorySlugs")).Ok? ==>
      r == Gather(RequestsFor(args, ctx, Filters(Get(args, "categoryIds"), Get(args, "categorySlugs")).value),
                  fetch, SortKeyFor(args, ctx.githubApiTypes, instant, ordering).value)
  {
    match SortKeyFor(args, ctx.githubApiTypes, instant, ordering)
    case Err(e) => Err(e)
    case Ok(key) =>
      match Filters(Get(args, "categoryIds"), Get(args, "categorySlugs"))
      case Err(e) => Err(e)
      case Ok(filters) => Gather(RequestsFor(args, ctx, filters), fetch, key)
  }

  /** A non-null but empty `categoryIds` list makes no request and yields no discussion. */
  lemma EmptyCategoryIdsFetchNothing(args: Record, ctx: SourceContext, fetch: Fetcher,
                                     instant: Value -> int, ordering: Ordering)
    requires Get(args, "categoryIds") == Arr([])
    requires RoleValue(ctx.githubApiTypes, "DISCUSSION_ORDER_FIELD").Some?
    requires RoleValue(ctx.githubApiTypes, "ORDER_DIRECTION").Some?
    ensures GetRepositoryDiscussions(args, ctx, fetch, instant, ordering) == Ok(Fetched([], []))
  {
    assert Responses(fetch, []) == [];
    assert DefinedPart([]) == [];
  }

  // ---------------------------------------------------------------------------
  // sourceNodes

  /** `Object.assign({}, DEFAULT_OPTIONS, pluginOptions)`: descending by creation time unless
      the caller's options say otherwise; every caller option is kept as given. */
  function DiscussionOptions(api: Tree, user: Record): (r: Result<Record>)
    ensures r.Err? <==>
      ApiConstant(api, "ORDER_DIRECTION", "DESC").Err? || ApiConstant(api, "DISCUSSION_ORDER_FIELD", "CREATED_AT").Err?
    ensures r.Ok? ==> r.value.Keys == user.Keys + {"orderByDirection", "orderByField"}
    ensures r.Ok? ==> forall k :: k in user ==> r.value[k] == user[k]
    ensures r.Ok? && "orderByDirection" !in user ==>
      r.value["orderByDirection"] == ApiConstant(api, "ORDER_DIRECTION", "DESC").value
    ensures r.Ok? && "orderByField" !in user ==>
      r.value["orderByField"] == ApiConstant(api, "DISCUSSION_ORDER_FIELD", "CREATED_AT").value
  {
    match ApiConstant(api, "ORDER_DIRECTION", "DESC")
    case Err(e) => Err(e)
    case Ok(desc) =>
      match ApiConstant(api, "DISCUSSION_ORDER_FIELD", "CREATED_AT")
      case Err(e) => Err(e)
      case Ok(createdAt) => Ok(map["orderByDirection" := desc, "orderByField" := createdAt] + user)
  }

  /** `mapDiscussions ?? (_) => _`, applied to every discussion once. */
  function MapDiscussions(mapDiscussions: Option<Value -> Value>, ds: seq<Value>): (r: seq<Value>)
    ensures |r| == |ds|
    ensures mapDiscussions.None? ==> r == ds
    ensures mapDiscussions.Some? ==> forall i :: 0 <= i < |r| ==> r[i] == mapDiscussions.value(ds[i])
  {
    match mapDiscussions
    case None => ds
    case Some(f) => seq(|ds|, i requires 0 <= i < |ds| => f(ds[i]))
  }

  /** The elements `[...v]` spreads: an array's items or a string's characters; anything
      else is not iterable. */
  function Iterated(v: Value): (r: Option<seq<Value>>)
    ensures r.Some? <==> v.Arr? || v.Str?
    ensures v.Arr? ==> r == Some(v.items)
    ensures v.Str? ==> r.Some? && |r.value| == |v.s|
  {
    match v
    case Arr(items) => Some(items)
    case Str(s) => Some(seq(|s|, i requires 0 <= i < |s| => Str([s[i]])))
    case _ => None
  }

  /** Whether every discussion can be projected: none is `null`/`undefined` and each has
      iterable `labels`. */
  predicate Projectable(ds: seq<Value>) {
    forall i :: 0 <= i < |ds| ==> !IsNullish(ds[i]) && Iterated(Read(ds[i], "labels")).Some?
  }

  /** The labels of every discussion, in order. */
  function LabelLists(ds: seq<Value>): (r: seq<seq<Value>>)
    requires Projectable(ds)
    ensures |r| == |ds|
    ensures forall i :: 0 <= i < |ds| ==> r[i] == Iterated(Read(ds[i], "labels")).value
  {
    seq(|ds|, i requires 0 <= i < |ds| => Iterated(Read(ds[i], "labels")).value)
  }

  /** One field of every discussion, in order. */
  function Column(ds: seq<Value>, k: string): (r: seq<Value>)
    ensures |r| == |ds|
    ensures forall i :: 0 <= i < |ds| ==> r[i] == Read(ds[i], k)
  {
    seq(|ds|, i requires 0 <= i < |ds| => Read(ds[i], k))
  }

  /** The object `sourceNodes` returns, with computed keys set in the order DISCUSSION, LABEL,
      USER, DISCUSSION_CATEGORY (so a later role's list wins when two type names collide). */
  function Project(reg: Tree, ds: seq<Value>): (r: Result<Record>)
    ensures r.Ok? <==> Projectable(ds)
    ensures r.Err? ==> r.error.TypeError?
    ensures r.Ok? ==> (r.value.Keys ==
      {RoleKey(reg, "DISCUSSION"), RoleKey(reg, "LABEL"), RoleKey(reg, "USER"), RoleKey(reg, "DISCUSSION_CATEGORY")})
    ensures r.Ok? ==> forall k :: k in r.value ==> r.value[k].Arr?
  {
    if !Projectable(ds) then Err(TypeError("cannot read properties of discussion, or labels not iterable"))
    else
      Ok(map[RoleKey(reg, "DISCUSSION") := Arr(ds)]
            [RoleKey(reg, "LABEL") := Arr(ReduceConcat(LabelLists(ds)))]
            [RoleKey(reg, "USER") := Arr(Column(ds, "author"))]
            [RoleKey(reg, "DISCUSSION_CATEGORY") := Arr(Column(ds, "category"))])
  }

  /** With four distinct type names: DISCUSSION holds the discussions themselves, LABEL all
      their labels in order, and USER and DISCUSSION_CATEGORY one entry per discussion
      (duplicates kept). */
  lemma ProjectionShape(reg: Tree, ds: seq<Value>)
    requires Projectable(ds)
    requires RoleKey(reg, "DISCUSSION") != RoleKey(reg, "LABEL")
    requires RoleKey(reg, "DISCUSSION") != RoleKey(reg, "USER")
    requires RoleKey(reg, "DISCUSSION") != RoleKey(reg, "DISCUSSION_CATEGORY")
    requires RoleKey(reg, "LABEL") != RoleKey(reg, "USER")
    requires RoleKey(reg, "LABEL") != RoleKey(reg, "DISCUSSION_CATEGORY")
    requires RoleKey(reg, "USER") != RoleKey(reg, "DISCUSSION_CATEGORY")
    ensures var r := Project(reg, ds).value;
      && r[RoleKey(reg, "DISCUSSION")] == Arr(ds)
      && r[RoleKey(reg, "LABEL")] == Arr(Flatten(LabelLists(ds)))
      && |r[RoleKey(reg, "LABEL")].items| == SumLengths(LabelLists(ds))
      && |r[RoleKey(reg, "USER")].items| == |ds|
      && |r[RoleKey(reg, "DISCUSSION_CATEGORY")].items| == |ds|
      && (forall i :: 0 <= i < |ds| ==> r[RoleKey(reg, "USER")].items[i] == Read(ds[i], "author"))
      && (forall i :: 0 <= i < |ds| ==> r[RoleKey(reg, "DISCUSSION_CATEGORY")].items[i] == Read(ds[i], "category"))
  {
    ProjectedLists(reg, ds);
    ReduceIsFlatten(LabelLists(ds));
    FlattenLength(LabelLists(ds));
  }

  /** With four distinct type names, each role's key holds the list built for it. */
  lemma ProjectedLists(reg: Tree, ds: seq<Value>)
    requires Projectable(ds)
    requires RoleKey(reg, "DISCUSSION") != RoleKey(reg, "LABEL")
    requires RoleKey(reg, "DISCUSSION") != RoleKey(reg, "USER")
    requires RoleKey(reg, "DISCUSSION") != RoleKey(reg, "DISCUSSION_CATEGORY")
    requires RoleKey(reg, "LABEL") != RoleKey(reg, "USER")
    requires RoleKey(reg, "LABEL") != RoleKey(reg, "DISCUSSION_CATEGORY")
    requires RoleKey(reg, "USER") != RoleKey(reg, "DISCUSSION_CATEGORY")
    ensures var r := Project(reg, ds).value;
      && r[RoleKey(reg, "DISCUSSION")] == Arr(ds)
      && r[RoleKey(reg, "LABEL")] == Arr(ReduceConcat(LabelLists(ds)))
      && r[RoleKey(reg, "USER")] == Arr(Column(ds, "author"))
      && r[RoleKey(reg, "DISCUSSION_CATEGORY")] == Arr(Column(ds, "category"))
  {
  }

  /** The discussions plugin's `sourceNodes(args, pluginOptions)`. The code as written sorts
      with `ordering == MillisecondsOfSecond`; `FullInstant` gives the corrected,
      chronological sort. */
  function SourceDiscussions(ctx: SourceContext, pluginOptions: Option<Record>,
                             mapDiscussions: Option<Value -> Value>, fetch: Fetcher,
                             instant: Value -> int, ordering: Ordering): (r: Result<Record>)
    ensures r.Ok? ==> (r.value.Keys ==
      {RoleKey(ctx.pluginNodeTypes, "DISCUSSION"), RoleKey(ctx.pluginNodeTypes, "LABEL"),
       RoleKey(ctx.pluginNodeTypes, "USER"), RoleKey(ctx.pluginNodeTypes, "DISCUSSION_CATEGORY")})
    ensures r.Ok? ==> forall k :: k in r.value ==> r.value[k].Arr?
    ensures RoleValue(ctx.githubApiTypes, "ORDER_DIRECTION").None? ==> r.Err?
  {
    match DiscussionOptions(ctx.githubApiTypes, pluginOptions.GetOr(map[]))
    case Err(e) => Err(e)
    case Ok(options) =>
      match GetRepositoryDiscussions(options, ctx, fetch, instant, ordering)
      case Err(e) => Err(e)
      case Ok(fetched) => Project(ctx.pluginNodeTypes, MapDiscussions(mapDiscussions, fetched.discussions))
  }

  /** What a successful `sourceNodes` returns, in terms of its inputs: the options are the
      defaults plus the caller's, the discussions are the fetched ones (one request per
      filter, all results concatenated and sorted) passed through `mapDiscussions`, and the
      four lists are projected from them. It fails exactly when the options, the fetch or the
      projection does. */
  lemma SourceDiscussionsContent(ctx: SourceContext, pluginOptions: Option<Record>,
                                 mapDiscussions: Option<Value -> Value>, fetch: Fetcher,
                                 instant: Value -> int, ordering: Ordering)
    requires RoleKey(ctx.pluginNodeTypes, "DISCUSSION") != RoleKey(ctx.pluginNodeTypes, "LABEL")
    requires RoleKey(ctx.pluginNodeTypes, "DISCUSSION") != RoleKey(ctx.pluginNodeTypes, "USER")
    requires RoleKey(ctx.pluginNodeTypes, "DISCUSSION") != RoleKey(ctx.pluginNodeTypes, "DISCUSSION_CATEGORY")
    requires RoleKey(ctx.pluginNodeTypes, "LABEL") != RoleKey(ctx.pluginNodeTypes, "USER")
    requires RoleKey(ctx.pluginNodeTypes, "LABEL") != RoleKey(ctx.pluginNodeTypes, "DISCUSSION_CATEGORY")
    requires RoleKey(ctx.pluginNodeTypes, "USER") != RoleKey(ctx.pluginNodeTypes, "DISCUSSION_CATEGORY")
    ensures var options := DiscussionOptions(ctx.githubApiTypes, pluginOptions.GetOr(map[]));
      var r := SourceDiscussions(ctx, pluginOptions, mapDiscussions, fetch, instant, ordering);
      options.Err? ==> r.Err?
    ensures var options := DiscussionOptions(ctx.githubApiTypes, pluginOptions.GetOr(map[]));
      var r := SourceDiscussions(ctx, pluginOptions, mapDiscussions, fetch, instant, ordering);
      options.Ok? && GetRepositoryDiscussions(options.value, ctx, fetch, instant, ordering).Err? ==> r.Err?
    ensures var options := DiscussionOptions(ctx.githubApiTypes, pluginOptions.GetOr(map[]));
      var r := SourceDiscussions(ctx, pluginOptions, mapDiscussions, fetch, instant, ordering);
      options.Ok? && GetRepositoryDiscussions(options.value, ctx, fetch, instant, ordering).Ok? ==>
        var fetched := GetRepositoryDiscussions(options.value, ctx, fetch, instant, ordering).value;
        var ds := MapDiscussions(mapDiscussions, fetched.discussions);
        var reg := ctx.pluginNodeTypes;
        && fetched.requests == RequestsFor(options.value, ctx,
             Filters(Get(options.value, "categoryIds"), Get(options.value, "categorySlugs")).value)
        && multiset(fetched.discussions) == multiset(Flatten(Responses(fetch, fetched.requests)))
        && (r.Ok? <==> Projectable(ds))
        && (r.Ok? ==>
              && r.value[RoleKey(reg, "DISCUSSION")] == Arr(ds)
              && r.value[RoleKey(reg, "LABEL")] == Arr(Flatten(LabelLists(ds)))
              && |r.value[RoleKey(reg, "USER")].items| == |ds|
              && |r.value[RoleKey(reg, "DISCUSSION_CATEGORY")].items| == |ds|
              && (forall i :: 0 <= i < |ds| ==> r.value[RoleKey(reg, "USER")].items[i] == Read(ds[i], "author"))
              && (forall i :: 0 <= i < |ds| ==>
                    r.value[RoleKey(reg, "DISCUSSION_CATEGORY")].items[i] == Read(ds[i], "category")))
  {
    var options := DiscussionOptions(ctx.githubApiTypes, pluginOptions.GetOr(map[]));
    if options.Ok? {
      var got := GetRepositoryDiscussions(options.value, ctx, fetch, instant, ordering);
      if got.Ok? {
        var ds := MapDiscussions(mapDiscussions, got.value.discussions);
        if Projectable(ds) {
          ProjectionShape(ctx.pluginNodeTypes, ds);
        }
      }
    }
  }

  /** Under the engine's API types and with no order options of the caller's, the plugin
      compares `createdAt`, descending. As written that is the negated millisecond-of-second
      component of `createdAt`; with the corrected key it is the negated instant, newest
      first. */
  lemma DefaultOrderIsCreatedAtDescending(api: Tree, user: Record, instant: Value -> int, ordering: Ordering)
    requires api == GetGithubApiTypes(None)
    requires "orderByDirection" !in user && "orderByField" !in user
    ensures DiscussionOptions(api, user).Ok?
    ensures SortKeyFor(DiscussionOptions(api, user).value, api, instant, ordering) ==
      Ok(SortKey(ordering, instant, "createdAt", true))
    ensures ordering == MillisecondsOfSecond ==>
      SortKeyFor(DiscussionOptions(api, user).value, api, instant, ordering) == Ok(MillisecondKey(instant, "createdAt", true))
    ensures ordering == FullInstant ==>
      SortKeyFor(DiscussionOptions(api, user).value, api, instant, ordering) == Ok(InstantKey(instant, "createdAt", true))
  {
    EngineFieldConstants();
    EngineDirectionConstants();
    DefaultOptionsOrder(api, user);
    CreatedDescKey(DiscussionOptions(api, user).value, api, instant, ordering);
  }

  /** The corrected plugin, with the engine's API types, the caller's options leaving the
      order alone and no `mapDiscussions`: the DISCUSSION list it returns starts with every
      fetched discussion that is not `undefined`, newest `createdAt` first. */
  lemma CorrectedNewestFirst(ctx: SourceContext, pluginOptions: Option<Record>, fetch: Fetcher, instant: Value -> int)
    requires ctx.githubApiTypes == GetGithubApiTypes(None)
    requires "orderByDirection" !in pluginOptions.GetOr(map[]) && "orderByField" !in pluginOptions.GetOr(map[])
    requires RoleKey(ctx.pluginNodeTypes, "DISCUSSION") != RoleKey(ctx.pluginNodeTypes, "LABEL")
    requires RoleKey(ctx.pluginNodeTypes, "DISCUSSION") != RoleKey(ctx.pluginNodeTypes, "USER")
    requires RoleKey(ctx.pluginNodeTypes, "DISCUSSION") != RoleKey(ctx.pluginNodeTypes, "DISCUSSION_CATEGORY")
    requires RoleKey(ctx.pluginNodeTypes, "LABEL") != RoleKey(ctx.pluginNodeTypes, "USER")
    requires RoleKey(ctx.pluginNodeTypes, "LABEL") != RoleKey(ctx.pluginNodeTypes, "DISCUSSION_CATEGORY")
    requires RoleKey(ctx.pluginNodeTypes, "USER") != RoleKey(ctx.pluginNodeTypes, "DISCUSSION_CATEGORY")
    ensures var options := DiscussionOptions(ctx.githubApiTypes, pluginOptions.GetOr(map[]));
      var r := SourceDiscussions(ctx, pluginOptions, None, fetch, instant, FullInstant);
      r.Ok? ==>
        && options.Ok?
        && GetRepositoryDiscussions(options.value, ctx, fetch, instant, FullInstant).Ok?
        && var got := GetRepositoryDiscussions(options.value, ctx, fetch, instant, FullInstant).value;
           var ds := r.value[RoleKey(ctx.pluginNodeTypes, "DISCUSSION")].items;
           var n := |DefinedPart(Flatten(Responses(fetch, got.requests)))|;
           && n <= |ds|
           && forall i, j :: 0 <= i < j < n ==>
                TimestampOf(ds[i], "createdAt", instant) >= TimestampOf(ds[j], "createdAt", instant)
  {
    var options := DiscussionOptions(ctx.githubApiTypes, pluginOptions.GetOr(map[]));
    var r := SourceDiscussions(ctx, pluginOptions, None, fetch, instant, FullInstant);
    SourceDiscussionsContent(ctx, pluginOptions, None, fetch, instant, FullInstant);
    if r.Ok? {
      DefaultOrderIsCreatedAtDescending(ctx.githubApiTypes, pluginOptions.GetOr(map[]), instant, FullInstant);
      var got := GetRepositoryDiscussions(options.value, ctx, fetch, instant, FullInstant).value;
      var ds := r.value[RoleKey(ctx.pluginNodeTypes, "DISCUSSION")].items;
      var n := |DefinedPart(Flatten(Responses(fetch, got.requests)))|;
      assert ds == got.discussions;
      InstantKeyChronological(ds[..n], instant, "createdAt", true);
      forall i, j | 0 <= i < j < n
        ensures TimestampOf(ds[i], "createdAt", instant) >= TimestampOf(ds[j], "createdAt", instant)
      {
        assert ds[..n][i] == ds[i] && ds[..n][j] == ds[j];
      }
    }
  }

  lemma DefaultOptionsOrder(api: Tree, user: Record)
    requires ApiConstant(api, "DISCUSSION_ORDER_FIELD", "CREATED_AT") == Ok(Str("CREATED_AT"))
    requires ApiConstant(api, "ORDER_DIRECTION", "DESC") == Ok(Str("DESC"))
    requires "orderByDirection" !in user && "orderByField" !in user
    ensures DiscussionOptions(api, user).Ok?
    ensures Get(DiscussionOptions(api, user).value, "orderByField") == Str("CREATED_AT")
    ensures Get(DiscussionOptions(api, user).value, "orderByDirection") == Str("DESC")
  {
  }

  lemma CreatedDescKey(args: Record, api: Tree, instant: Value -> int, ordering: Ordering)
    requires ApiConstant(api, "DISCUSSION_ORDER_FIELD", "CREATED_AT") == Ok(Str("CREATED_AT"))
    requires ApiConstant(api, "ORDER_DIRECTION", "DESC") == Ok(Str("DESC"))
    requires Get(args, "orderByField") == Str("CREATED_AT")
    requires Get(args, "orderByDirection") == Str("DESC")
    ensures SortKeyFor(args, api, instant, ordering) == Ok(SortKey(ordering, instant, "createdAt", true))
  {
  }

  // ---------------------------------------------------------------------------
  // The plugin as the engine sees it

  function Outcome(r: Result<Record>): (o: SourceOutcome)
    ensures o.Returned? <==> r.Ok?
    ensures r.Ok? ==> o.data == Rec(r.value)
  {
    match r
    case Ok(record) => Returned(Rec(record))
    case Err(e) => Failed(match e case TypeError(what) => what case Thrown(reason) => reason)
  }

  /** The discussions package as a sub-plugin module: `sourceNodes` as above, plus an
      `onCreateNode` and a `createSchemaCustomization`. */
  function DiscussionsModule(mapDiscussions: Option<Value -> Value>, fetch: Fetcher, instant: Value -> int,
                             ordering: Ordering): (m: PluginModule)
    ensures m.sourceNodes.Some? && m.hasOnCreateNode && m.hasCreateSchemaCustomization
  {
    PluginModule(
      Some((ctx: SourceContext, options: Record) =>
        Outcome(SourceDiscussions(ctx, Some(options), mapDiscussions, fetch, instant, ordering))),
      true, true)
  }

  /** Registered with the engine, the plugin either aborts the walk or contributes one group
      per role type name, each as long as what it returned: it never returns `undefined` and
      every group it returns is an array. */
  lemma DiscussionsContribute(p: SubPlugin, env: Sourcing.SourceEnv,
                              mapDiscussions: Option<Value -> Value>, fetch: Fetcher, instant: Value -> int,
                              ordering: Ordering)
    requires p.pluginModule == Some(DiscussionsModule(mapDiscussions, fetch, instant, ordering))
    ensures var call := Sourcing.CallFor(p, env);
      var r := SourceDiscussions(call.context, Some(call.options), mapDiscussions, fetch, instant, ordering);
      var s := Sourcing.Settle(p, env);
      && (r.Ok? <==> s.Contributed?)
      && (r.Ok? ==> (s.groups.Keys == r.value.Keys &&
            forall k :: k in r.value ==> |s.groups[k]| == |r.value[k].items|))
  {
    var call := Sourcing.CallFor(p, env);
    var r := SourceDiscussions(call.context, Some(call.options), mapDiscussions, fetch, instant, ordering);
    assert p.pluginModule.value.sourceNodes.value(call.context, call.options) == Outcome(r);
    OutcomeSettles(p, env, r);
  }

  /** A sub-plugin whose hook answers with `Outcome(r)` for a record of arrays contributes
      exactly when `r` is a record. */
  lemma OutcomeSettles(p: SubPlugin, env: Sourcing.SourceEnv, r: Result<Record>)
    requires Sourcing.HasSourceNodes(p)
    requires var call := Sourcing.CallFor(p, env);
      p.pluginModule.value.sourceNodes.value(call.context, call.options) == Outcome(r)
    requires r.Ok? ==> forall k :: k in r.value ==> r.value[k].Arr?
    ensures var s := Sourcing.Settle(p, env);
      && (r.Ok? <==> s.Contributed?)
      && (r.Ok? ==> (s.groups.Keys == r.value.Keys &&
            forall k :: k in r.value ==> |s.groups[k]| == |r.value[k].items|))
  {
    if r.Ok? {
      assert Sourcing.AllArrays(Spread(Rec(r.value)));
    }
  }
}

=== FILE: fragments.dfy ===
/**
 The role-keyed table of GraphQL field selections handed to sub-plugins
 (`githubPlainResolverFields`). The table holds which selection each role gets; the
 selections' field lines are kept apart (`Text`), since only their identity and the shared
 actor prefix matter to the model.
 */
module Fragments {
  import opened JsValues
  import opened NodeTypes

  type Fragment = seq<string>

  /** Fields every GitHub actor (user, bot, organisation, ...) exposes. */
  const AbstractActorFields: Fragment :=
    ["avatarUrl", "login", "resourcePath", "url", "typename: __typename"]

  const UserFragment: Fragment := AbstractActorFields + [
    "anyPinnableRepositories: anyPinnableItems(type: REPOSITORY)",
    "anyPinnableGists: anyPinnableItems(type: GIST)",
    "anyPinnableIssues: anyPinnableItems(type: ISSUE)",
    "anyPinnableProjects: anyPinnableItems(type: PROJECT)",
    "anyPinnablePullRequests: anyPinnableItems(type: PULL_REQUEST)",
    "anyPinnableUsers: anyPinnableItems(type: USER)",
    "anyPinnableOrganizations: anyPinnableItems(type: ORGANIZATION)",
    "anyPinnableTeams: anyPinnableItems(type: TEAM)",
    "bio", "bioHTML", "company", "companyHTML", "name", "createdAt", "updatedAt", "id",
    "databaseId", "email", "hasSponsorsListing", "isBountyHunter", "login", "isCampusExpert",
    "isDeveloperProgramMember", "isEmployee", "isGitHubStar", "isHireable", "isSiteAdmin",
    "isViewer", "isSponsoringViewer", "websiteUrl", "twitterUsername", "url", "viewerIsSponsoring"]

  const DiscussionFragment: Fragment :=
    ["body", "createdAt", "updatedAt", "url", "id", "number", "title", "locked", "lastEditedAt"]

  const DiscussionCategoryFragment: Fragment :=
    ["name", "id", "createdAt", "description", "emoji", "emojiHTML", "isAnswerable", "slug", "updatedAt"]

  const LabelFragment: Fragment :=
    ["color", "createdAt", "description", "id", "isDefault", "name", "resourcePath", "updatedAt", "color", "url"]

  /** The four selections the `fragments` object defines. */
  datatype Selection = UserSelection | DiscussionSelection | DiscussionCategorySelection | LabelSelection

  /** The field lines of a selection. */
  function Text(sel: Selection): Fragment {
    match sel
    case UserSelection => UserFragment
    case DiscussionSelection => DiscussionFragment
    case DiscussionCategorySelection => DiscussionCategoryFragment
    case LabelSelection => LabelFragment
  }

  /** Role -> selection, as handed to sub-plugins; a role without a selection maps to `None`
      (`undefined` in the source). */
  type FragmentTable = map<string, Option<Selection>>

  /** Looks a type name up in the `fragments` object, which is keyed by the registry's type
      names of the four roles that have a selection. Its computed keys are assigned in the
      order USER, DISCUSSION, DISCUSSION_CATEGORY, LABEL, so when two of those names collide
      the later role's selection is the one stored. */
  function SelectionNamed(reg: Tree, name: string): Option<Selection> {
    if name == RoleKey(reg, "LABEL") then Some(LabelSelection)
    else if name == RoleKey(reg, "DISCUSSION_CATEGORY") then Some(DiscussionCategorySelection)
    else if name == RoleKey(reg, "DISCUSSION") then Some(DiscussionSelection)
    else if name == RoleKey(reg, "USER") then Some(UserSelection)
    else None
  }

  function RoleKeys(reg: Tree): set<string> {
    if reg.Obj? then set i | 0 <= i < |reg.fields| :: reg.fields[i].key else {}
  }

  /** `getGithubPlainResolverFields({pluginNodeTypes})`: one entry per registry role, holding
      the selection stored under that role's type name. */
  function GetGithubPlainResolverFields(reg: Tree): (r: FragmentTable)
    ensures r.Keys == RoleKeys(reg)
  {
    map role | role in RoleKeys(reg) :: SelectionNamed(reg, RoleKey(reg, role))
  }

  /** The four roles that have a selection get their own one, whatever their type names, as
      long as those names differ; any role whose type name is none of theirs gets none. */
  lemma FragmentsFollowRoles(reg: Tree)
    requires reg.Obj?
    requires {"USER", "DISCUSSION", "DISCUSSION_CATEGORY", "LABEL"} <= RoleKeys(reg)
    requires RoleKey(reg, "USER") != RoleKey(reg, "DISCUSSION")
    requires RoleKey(reg, "USER") != RoleKey(reg, "DISCUSSION_CATEGORY")
    requires RoleKey(reg, "USER") != RoleKey(reg, "LABEL")
    requires RoleKey(reg, "DISCUSSION") != RoleKey(reg, "DISCUSSION_CATEGORY")
    requires RoleKey(reg, "DISCUSSION") != RoleKey(reg, "LABEL")
    requires RoleKey(reg, "DISCUSSION_CATEGORY") != RoleKey(reg, "LABEL")
    ensures var r := GetGithubPlainResolverFields(reg);
      && r["USER"] == Some(UserSelection)
      && r["DISCUSSION"] == Some(DiscussionSelection)
      && r["DISCUSSION_CATEGORY"] == Some(DiscussionCategorySelection)
      && r["LABEL"] == Some(LabelSelection)
      && forall role :: role in r && RoleKey(reg, role) !in
           {RoleKey(reg, "USER"), RoleKey(reg, "DISCUSSION"), RoleKey(reg, "DISCUSSION_CATEGORY"), RoleKey(reg, "LABEL")}
           ==> r[role] == None
  {
  }

  /** In the default registry a role's key is its own type name. */
  lemma DefaultRoleKey(i: int)
    requires 0 <= i < 14
    ensures RoleKey(Obj(DefaultPluginNodeTypes), DefaultPluginNodeTypes[i].key) == DefaultPluginNodeTypes[i].value.s
  {
    DefaultRegistryShape();
    FindDistinct(DefaultPluginNodeTypes, i);
  }

  /** Default type names differ. */
  lemma DefaultNamesDiffer(i: int, j: int)
    requires 0 <= i < 14 && 0 <= j < 14 && i != j
    ensures DefaultPluginNodeTypes[i].value.s != DefaultPluginNodeTypes[j].value.s
  {
    DefaultRegistryShape();
    if i < j {
      assert Values(DefaultPluginNodeTypes)[i] != Values(DefaultPluginNodeTypes)[j];
    } else {
      assert Values(DefaultPluginNodeTypes)[j] != Values(DefaultPluginNodeTypes)[i];
    }
  }

  /** With the default registry (what resolving without an override yields, see
      `NodeTypes.NoOverrideIsDefault`) only USER, DISCUSSION, DISCUSSION_CATEGORY and LABEL carry a
      selection; REPOSITORY, ISSUE and the other ten roles carry none. */
  lemma DefaultFragments(reg: Tree)
    requires reg == Obj(DefaultPluginNodeTypes)
    ensures var r := GetGithubPlainResolverFields(reg);
      && {"USER", "DISCUSSION", "DISCUSSION_CATEGORY", "LABEL"} <= r.Keys
      && r["USER"] == Some(UserSelection)
      && r["DISCUSSION"] == Some(DiscussionSelection)
      && r["DISCUSSION_CATEGORY"] == Some(DiscussionCategorySelection)
      && r["LABEL"] == Some(LabelSelection)
      && forall role :: role in r && role !in {"USER", "DISCUSSION", "DISCUSSION_CATEGORY", "LABEL"} ==> r[role] == None
  {
    DefaultSelectedNames(reg);
    FragmentsFollowRoles(reg);
    forall role | role in RoleKeys(reg) && role !in {"USER", "DISCUSSION", "DISCUSSION_CATEGORY", "LABEL"}
      ensures RoleKey(reg, role) !in {"GitHubUser", "GitHubDiscussion", "GitHubDiscussionCategory", "GitHubLabel"}
    {
      DefaultOtherRole(reg, role);
    }
  }

  /** A default role other than the four with a selection has a type name of its own. */
  lemma DefaultOtherRole(reg: Tree, role: string)
    requires reg == Obj(DefaultPluginNodeTypes)
    requires role in RoleKeys(reg) && role !in {"USER", "DISCUSSION", "DISCUSSION_CATEGORY", "LABEL"}
    ensures RoleKey(reg, role) !in {"GitHubUser", "GitHubDiscussion", "GitHubDiscussionCategory", "GitHubLabel"}
  {
    var ds := DefaultPluginNodeTypes;
    var i :| 0 <= i < 14 && ds[i].key == role;
    SelectedPositions();
    assert i != 0 && i != 6 && i != 7 && i != 8;
    DefaultRoleKey(i);
    OtherName(i);
  }

  /** Where the four roles with a selection sit in the default registry. */
  lemma SelectedPositions()
    ensures DefaultPluginNodeTypes[0] == Field("DISCUSSION", Leaf("GitHubDiscussion"))
    ensures DefaultPluginNodeTypes[6] == Field("LABEL", Leaf("GitHubLabel"))
    ensures DefaultPluginNodeTypes[7] == Field("DISCUSSION_CATEGORY", Leaf("GitHubDiscussionCategory"))
    ensures DefaultPluginNodeTypes[8] == Field("USER", Leaf("GitHubUser"))
  {
  }

  lemma OtherName(i: int)
    requires 0 <= i < 14 && i != 0 && i != 6 && i != 7 && i != 8
    ensures DefaultPluginNodeTypes[i].value.s !in {"GitHubUser", "GitHubDiscussion", "GitHubDiscussionCategory", "GitHubLabel"}
  {
    SelectedPositions();
    DefaultNamesDiffer(i, 0); DefaultNamesDiffer(i, 6); DefaultNamesDiffer(i, 7); DefaultNamesDiffer(i, 8);
  }

  /** The default type names of the four roles that carry a selection. */
  lemma DefaultSelectedNames(reg: Tree)
    requires reg == Obj(DefaultPluginNodeTypes)
    ensures RoleKey(reg, "USER") == "GitHubUser"
    ensures RoleKey(reg, "DISCUSSION") == "GitHubDiscussion"
    ensures RoleKey(reg, "DISCUSSION_CATEGORY") == "GitHubDiscussionCategory"
    ensures RoleKey(reg, "LABEL") == "GitHubLabel"
    ensures {"USER", "DISCUSSION", "DISCUSSION_CATEGORY", "LABEL"} <= RoleKeys(reg)
  {
    SelectedPositions();
    SelectedName(reg, 0);
    SelectedName(reg, 6);
    SelectedName(reg, 7);
    SelectedName(reg, 8);
  }

  lemma SelectedName(reg: Tree, i: int)
    requires reg == Obj(DefaultPluginNodeTypes)
    requires 0 <= i < 14
    ensures RoleKey(reg, DefaultPluginNodeTypes[i].key) == DefaultPluginNodeTypes[i].value.s
    ensures DefaultPluginNodeTypes[i].key in RoleKeys(reg)
  {
    DefaultRoleKey(i);
  }

  /** The USER selection starts with the shared actor fields. */
  lemma UserFragmentExtendsActor()
    ensures |AbstractActorFields| <= |Text(UserSelection)|
    ensures Text(UserSelection)[..|AbstractActorFields|] == AbstractActorFields
  {
  }
}

=== FILE: js_values.dfy ===
/**
 The slice of JavaScript value semantics the plugin relies on: plain data values,
 records (objects seen as string-keyed maps), property reads that yield `undefined`,
 nullish tests, the string coercion used by template literals and computed property
 keys, object spread and key removal, and the Option/Result wrappers used for the
 places where the code throws.
 */
module JsValues {

  datatype Option<+T> = None | Some(value: T) {
    function GetOr(default: T): T {
      match this
      case Some(v) => v
      case None => default
    }
  }

  /** An error the source raises: a `TypeError` from the JavaScript runtime, or a failure
      (a thrown exception or rejected promise) coming out of a hook or a sub-plugin. */
  datatype JsError = TypeError(what: string) | Thrown(reason: string)

  datatype Result<+T> = Ok(value: T) | Err(error: JsError)

  /** Plain data values. Numbers are restricted to integers. */
  datatype Value =
    | Undefined
    | Null
    | Bool(b: bool)
    | Num(n: int)
    | Str(s: string)
    | Arr(items: seq<Value>)
    | Rec(fields: map<string, Value>)

  /** An object with its own enumerable properties; key order is not modelled. */
  type Record = map<string, Value>

  /** `r[k]`: a missing key reads as `undefined`. */
  function Get(r: Record, k: string): (v: Value)
    ensures k !in r ==> v == Undefined
    ensures k in r ==> v == r[k]
  {
    if k in r then r[k] else Undefined
  }

  /** `v == null`, i.e. `null` or `undefined`. */
  predicate IsNullish(v: Value) {
    v.Undefined? || v.Null?
  }

  /** `a ?? b` */
  function Coalesce(a: Value, b: Value): (r: Value)
    ensures !IsNullish(a) ==> r == a
    ensures IsNullish(a) ==> r == b
  {
    if IsNullish(a) then b else a
  }

  /** `removeKey(r, k)` from the plugin's utilities: a copy of `r` without the key `k`. */
  function RemoveKey(r: Record, k: string): (r': Record)
    ensures k !in r'
    ensures r'.Keys == r.Keys - {k}
    ensures forall j :: j in r' ==> r'[j] == r[j]
  {
    r - {k}
  }

  /** `s.startsWith(prefix)` */
  predicate StartsWith(s: string, prefix: string) {
    |prefix| <= |s| && s[..|prefix|] == prefix
  }

  function DigitChar(d: nat): char
    requires d < 10
  {
    "0123456789"[d]
  }

  /** Decimal spelling of a natural number, as `String(n)` gives it. */
  function NatToString(n: nat): (s: string)
    ensures |s| >= 1
    ensures forall i :: 0 <= i < |s| ==> '0' <= s[i] <= '9'
    decreases n
  {
    if n < 10 then [DigitChar(n)] else NatToString(n / 10) + [DigitChar(n % 10)]
  }

  /** Different digits are different characters. */
  lemma DigitCharInjective(a: nat, b: nat)
    requires a < 10 && b < 10 && DigitChar(a) == DigitChar(b)
    ensures a == b
  {
    var digits := "0123456789";
    assert forall i, j :: 0 <= i < j < 10 ==> digits[i] != digits[j];
  }

  /** Different numbers have different decimal spellings. */
  lemma {:induction false} NatToStringInjective(a: nat, b: nat)
    requires NatToString(a) == NatToString(b)
    ensures a == b
    decreases a
  {
    var sa, sb := NatToString(a), NatToString(b);
    if a < 10 && b < 10 {
      assert sa[0] == sb[0];
      DigitCharInjective(a, b);
    } else if a >= 10 && b >= 10 {
      var pa, pb := NatToString(a / 10), NatToString(b / 10);
      assert sa == pa + [DigitChar(a % 10)] && sb == pb + [DigitChar(b % 10)];
      assert |pa| == |pb|;
      assert sa[|pa|] == sb[|pb|];
      DigitCharInjective(a % 10, b % 10);
      assert sa[..|pa|] == pa && sb[..|pb|] == pb;
      NatToStringInjective(a / 10, b / 10);
    }
  }

  function IntToString(n: int): string {
    if n < 0 then "-" + NatToString(-n) else NatToString(n)
  }

  /** Joins strings with a separator, as `Array.prototype.join` does. */
  function Join(parts: seq<string>, sep: string): string
    decreases |parts|
  {
    if |parts| == 0 then ""
    else if |parts| == 1 then parts[0]
    else parts[0] + sep + Join(parts[1..], sep)
  }

  /** `String(v)`: the coercion used by template literals and computed property keys.
      Array elements that are `null` or `undefined` print as the empty string. */
  function ToDisplayString(v: Value): string
    decreases v
  {
    match v
    case Undefined => "undefined"
    case Null => "null"
    case Bool(b) => if b then "true" else "false"
    case Num(n) => IntToString(n)
    case Str(s) => s
    case Arr(items) =>
      Join(seq(|items|, i requires 0 <= i < |items| =>
             if IsNullish(items[i]) then "" else ToDisplayString(items[i])), ",")
    case Rec(_) => "[object Object]"
  }

  /** The property name of array index `i`. */
  function IndexKey(i: nat): string {
    NatToString(i)
  }

  /** The index-keyed record `{...xs}` gives for an array or a string: its keys are exactly
      the decimal indices `"0"` to `"n-1"`, and index `i` holds element `i`. */
  function IndexKeyed(items: seq<Value>): (r: Record)
    ensures r.Keys == set i | 0 <= i < |items| :: IndexKey(i)
    ensures |items| > 0 ==> r[IndexKey(|items| - 1)] == items[|items| - 1]
    ensures forall i :: 0 <= i < |items| ==> IndexKey(i) in r && r[IndexKey(i)] == items[i]
    decreases |items|
  {
    if |items| == 0 then map[]
    else
      var n := |items| - 1;
      var init := IndexKeyed(items[..n]);
      IndexKeyedSnoc(init, items);
      init[IndexKey(n) := items[n]]
  }

  /** Adding the last index to the record of the earlier ones gives the record of all. */
  lemma IndexKeyedSnoc(init: Record, items: seq<Value>)
    requires |items| > 0
    requires init.Keys == set i | 0 <= i < |items| - 1 :: IndexKey(i)
    requires forall i :: 0 <= i < |items| - 1 ==> IndexKey(i) in init && init[IndexKey(i)] == items[i]
    ensures var r := init[IndexKey(|items| - 1) := items[|items| - 1]];
      && r.Keys == (set i | 0 <= i < |items| :: IndexKey(i))
      && forall i :: 0 <= i < |items| ==> IndexKey(i) in r && r[IndexKey(i)] == items[i]
  {
    IndexKeysSnoc(|items| - 1);
    IndexKeysBelowDiffer(|items| - 1);
  }

  /** No index below `n` is spelled like `n`. */
  lemma IndexKeysBelowDiffer(n: nat)
    ensures forall i :: 0 <= i < n ==> IndexKey(i) != IndexKey(n)
  {
    forall i | 0 <= i < n ensures IndexKey(i) != IndexKey(n) {
      if IndexKey(i) == IndexKey(n) {
        NatToStringInjective(i, n);
      }
    }
  }

  /** The indices below `n + 1` are those below `n` and `n` itself. */
  lemma IndexKeysSnoc(n: nat)
    ensures (set i | 0 <= i < n + 1 :: IndexKey(i)) == (set i | 0 <= i < n :: IndexKey(i)) + {IndexKey(n)}
  {
    var a, b := set i | 0 <= i < n + 1 :: IndexKey(i), set i | 0 <= i < n :: IndexKey(i);
    forall k | k in a ensures k in b + {IndexKey(n)} {
      var i :| 0 <= i < n + 1 && k == IndexKey(i);
      if i < n {
        assert k in b;
      }
    }
    assert IndexKey(n) in a;
  }

  /** The own properties `{...v}` copies out of a value: an object's fields, the
      index-keyed elements of an array or characters of a string, nothing otherwise. */
  function Spread(v: Value): (r: Record)
    ensures v.Rec? ==> r == v.fields
    ensures v.Undefined? || v.Null? || v.Bool? || v.Num? ==> r == map[]
  {
    match v
    case Rec(m) => m
    case Arr(items) => IndexKeyed(items)
    case Str(s) => IndexKeyed(seq(|s|, i requires 0 <= i < |s| => Str([s[i]])))
    case _ => map[]
  }

  /** `v[k]` on a value that is not known to be an object: `null` and `undefined`
      throw, other primitives and arrays have none of the record keys read here. */
  function Property(v: Value, k: string): (r: Result<Value>)
    ensures r.Err? <==> IsNullish(v)
    ensures v.Rec? ==> r == Ok(Get(v.fields, k))
  {
    match v
    case Undefined => Err(TypeError("cannot read properties of undefined"))
    case Null => Err(TypeError("cannot read properties of null"))
    case Rec(m) => Ok(Get(m, k))
    case _ => Ok(Undefined)
  }
}

=== FILE: node_types.dfy ===
/**
 The type registry: the built-in role -> type-name table, the GitHub API constants
 table, and their resolution against a caller's override by a deep leaf-override
 merge. Tables are ordered trees because `Object.values` / `Object.keys` order is
 observable downstream (schema declarations, mapper visits).
 */
module NodeTypes {
  import opened JsValues

  /** A frozen configuration object: string leaves or nested objects with ordered fields. */
  datatype Tree = Leaf(s: string) | Obj(fields: seq<Field>)
  datatype Field = Field(key: string, value: Tree)

  function Keys(fs: seq<Field>): (ks: seq<string>)
    ensures |ks| == |fs|
    ensures forall i :: 0 <= i < |fs| ==> ks[i] == fs[i].key
  {
    seq(|fs|, i requires 0 <= i < |fs| => fs[i].key)
  }

  /** `Object.values(t)` for an object. */
  function Values(fs: seq<Field>): (vs: seq<Tree>)
    ensures |vs| == |fs|
    ensures forall i :: 0 <= i < |fs| ==> vs[i] == fs[i].value
  {
    seq(|fs|, i requires 0 <= i < |fs| => fs[i].value)
  }

  /** `t[k]`: the value stored under the first field named `k`. */
  function Find(fs: seq<Field>, k: string): (r: Option<Tree>)
    ensures r.None? <==> k !in Keys(fs)
    ensures r.Some? ==> exists i :: 0 <= i < |fs| && fs[i] == Field(k, r.value)
    decreases |fs|
  {
    if |fs| == 0 then None
    else if fs[0].key == k then Some(fs[0].value)
    else Find(fs[1..], k)
  }

  predicate DistinctKeys(fs: seq<Field>) {
    NoDuplicates(Keys(fs))
  }

  /** No two entries of a list are equal. */
  predicate NoDuplicates<T(==)>(xs: seq<T>) {
    forall i, j :: 0 <= i < j < |xs| ==> xs[i] != xs[j]
  }

  /** Every object in the tree has distinct keys, as every JavaScript object does. */
  predicate WellFormed(t: Tree)
    decreases t
  {
    match t
    case Leaf(_) => true
    case Obj(fs) => DistinctKeys(fs) && forall i :: 0 <= i < |fs| ==> WellFormed(fs[i].value)
  }

  /** Override fields whose key the default does not have, in override order. */
  function Added(os: seq<Field>, ds: seq<Field>): (r: seq<Field>)
    ensures forall f :: f in r <==> f in os && f.key !in Keys(ds)
    ensures (forall i :: 0 <= i < |os| ==> os[i].key in Keys(ds)) ==> r == []
    decreases |os|
  {
    if |os| == 0 then []
    else if os[0].key in Keys(ds) then Added(os[1..], ds)
    else [os[0]] + Added(os[1..], ds)
  }

  /**
   The semantics taken for `mergeDeep(target, source)` from the plugin's utilities (which
   are not part of this model): when both sides are objects, every target key keeps its
   position and takes the source's value (merged recursively), and source-only keys are
   appended in source order; otherwise the source value wins.
   */
  function Merge(d: Tree, o: Tree): Tree
    decreases d
  {
    if d.Leaf? || o.Leaf? then o
    else Obj(Kept(d.fields, o.fields) + Added(o.fields, d.fields))
  }

  /** The target's fields, each merged with the source's value for the same key. */
  function Kept(ds: seq<Field>, os: seq<Field>): (r: seq<Field>)
    ensures |r| == |ds|
    ensures forall i :: 0 <= i < |ds| ==> r[i].key == ds[i].key
    decreases ds
  {
    if |ds| == 0 then []
    else
      var v := match Find(os, ds[0].key)
               case None => ds[0].value
               case Some(ov) => Merge(ds[0].value, ov);
      [Field(ds[0].key, v)] + Kept(ds[1..], os)
  }

  const DefaultPluginNodeTypes: seq<Field> := [
    Field("DISCUSSION", Leaf("GitHubDiscussion")),
    Field("REPOSITORY", Leaf("GitHubRepository")),
    Field("REPOSITORY_TOPIC", Leaf("GitHubRepositoryTopic")),
    Field("LANGUAGE", Leaf("GitHubLanguage")),
    Field("REPOSITORY_OWNER", Leaf("GitHubRepositoryOwner")),
    Field("TOPIC", Leaf("GitHubTopic")),
    Field("LABEL", Leaf("GitHubLabel")),
    Field("DISCUSSION_CATEGORY", Leaf("GitHubDiscussionCategory")),
    Field("USER", Leaf("GitHubUser")),
    Field("BOT", Leaf("GitHubBot")),
    Field("ENTERPRISE_USER_ACCOUNT", Leaf("GitHubEnterpriseUserAccount")),
    Field("MANNEQUIN", Leaf("GitHubMannequin")),
    Field("ORGANIZATION", Leaf("GitHubOrganization")),
    Field("ISSUE", Leaf("GitHubIssue"))
  ]

  const DefaultGithubApiTypes: seq<Field> := [
    Field("USER", Leaf("User")),
    Field("ISSUE", Leaf("Issue")),
    Field("DISCUSSION_ORDER_FIELD", Obj([
      Field("CREATED_AT", Leaf("CREATED_AT")),
      Field("UPDATED_AT", Leaf("UPDATED_AT"))])),
    Field("ORDER_DIRECTION", Obj([
      Field("ASC", Leaf("ASC")),
      Field("DESC", Leaf("DESC"))]))
  ]

  /** `getPluginNodeTypes(override)`: `override ?? {}` merged over the defaults. */
  function GetPluginNodeTypes(override: Option<seq<Field>>): Tree {
    Merge(Obj(DefaultPluginNodeTypes), Obj(override.GetOr([])))
  }

  /** `getGithubApiTypes(override)`, merged the same way. */
  function GetGithubApiTypes(override: Option<seq<Field>>): Tree {
    Merge(Obj(DefaultGithubApiTypes), Obj(override.GetOr([])))
  }

  /** `registry[role]` for a resolved registry. */
  function RoleValue(reg: Tree, role: string): Option<Tree> {
    if reg.Obj? then Find(reg.fields, role) else None
  }

  /** `Object.values(registry)`: the registered type names, in registry order. */
  function TypeValues(reg: Tree): seq<Tree> {
    if reg.Obj? then Values(reg.fields) else []
  }

  /** `Object.values(registry).includes(type)` for a string `type`. */
  predicate IsRegistered(reg: Tree, typeName: string) {
    Leaf(typeName) in TypeValues(reg)
  }

  /** The string a registry value becomes as a template-literal part or property key. */
  function TypeString(t: Tree): string {
    match t
    case Leaf(s) => s
    case Obj(_) => "[object Object]"
  }

  /** The property key `registry.ROLE` becomes when used as a computed key. */
  function RoleKey(reg: Tree, role: string): string {
    match RoleValue(reg, role)
    case None => "undefined"
    case Some(t) => TypeString(t)
  }

  // ---------------------------------------------------------------------------
  // Properties of the merge

  lemma FindDistinct(fs: seq<Field>, i: int)
    requires DistinctKeys(fs)
    requires 0 <= i < |fs|
    ensures Find(fs, fs[i].key) == Some(fs[i].value)
  {
    var r := Find(fs, fs[i].key);
    var j :| 0 <= j < |fs| && fs[j] == Field(fs[i].key, r.value);
    assert i == j;
  }

  /** `t[k]` is the value of the first field named `k`. */
  lemma {:induction false} FindFirst(fs: seq<Field>, i: int, k: string)
    requires 0 <= i < |fs| && fs[i].key == k
    requires forall j :: 0 <= j < i ==> fs[j].key != k
    ensures Find(fs, k) == Some(fs[i].value)
    decreases i
  {
    if i > 0 {
      FindFirst(fs[1..], i - 1, k);
    }
  }

  lemma {:induction false} KeptConcat(a: seq<Field>, b: seq<Field>, os: seq<Field>)
    ensures Kept(a + b, os) == Kept(a, os) + Kept(b, os)
    decreases |a|
  {
    if |a| == 0 {
      assert a + b == b;
    } else {
      assert (a + b)[0] == a[0];
      assert (a + b)[1..] == a[1..] + b;
      KeptConcat(a[1..], b, os);
    }
  }

  /** The source already holds every one of the fields, each well-formed, under its key. */
  predicate HeldBy(fs: seq<Field>, os: seq<Field>) {
    forall i :: 0 <= i < |fs| ==> Find(os, fs[i].key) == Some(fs[i].value) && WellFormed(fs[i].value)
  }

  /** Fields whose values the source already holds under the same key are fixed points. */
  lemma {:induction false} KeptFixed(ds: seq<Field>, os: seq<Field>)
    requires HeldBy(ds, os)
    ensures Kept(ds, os) == ds
    decreases ds
  {
    if |ds| > 0 {
      MergeSelf(ds[0].value);
      assert HeldBy(ds[1..], os) by {
        forall i | 0 <= i < |ds[1..]|
          ensures Find(os, ds[1..][i].key) == Some(ds[1..][i].value) && WellFormed(ds[1..][i].value)
        {
          assert ds[1..][i] == ds[i + 1];
        }
      }
      KeptFixed(ds[1..], os);
    }
  }

  /** Merging a table with itself changes nothing. */
  lemma {:induction false} MergeSelf(t: Tree)
    requires WellFormed(t)
    ensures Merge(t, t) == t
    decreases t, 1
  {
    if t.Obj? {
      var fs := t.fields;
      forall i | 0 <= i < |fs|
        ensures Find(fs, fs[i].key) == Some(fs[i].value)
      {
        FindDistinct(fs, i);
      }
      assert HeldBy(fs, fs);
      KeptFixed(fs, fs);
      assert forall i :: 0 <= i < |fs| ==> fs[i].key in Keys(fs) by {
        forall i | 0 <= i < |fs| ensures fs[i].key in Keys(fs) {
          assert Keys(fs)[i] == fs[i].key;
        }
      }
      assert fs + [] == fs;
    }
  }

  /** An override with no fields leaves a table as it is. */
  lemma {:induction false} KeptEmpty(ds: seq<Field>)
    ensures Kept(ds, []) == ds
    decreases ds
  {
    if |ds| > 0 {
      KeptEmpty(ds[1..]);
    }
  }

  lemma MergeEmptyOverride(fs: seq<Field>)
    ensures Merge(Obj(fs), Obj([])) == Obj(fs)
  {
    KeptEmpty(fs);
    assert fs + [] == fs;
  }

  lemma FindIn(fs: seq<Field>, k: string) returns (i: int)
    requires Find(fs, k).Some?
    ensures 0 <= i < |fs| && fs[i] == Field(k, Find(fs, k).value)
  {
    i :| 0 <= i < |fs| && fs[i] == Field(k, Find(fs, k).value);
  }

  /** Merging the same source a second time is a no-op on the kept fields. */
  lemma {:induction false} KeptTwice(ds: seq<Field>, os: seq<Field>)
    requires forall i :: 0 <= i < |ds| ==> WellFormed(ds[i].value)
    requires WellFormed(Obj(os))
    ensures Kept(Kept(ds, os), os) == Kept(ds, os)
    decreases ds
  {
    if |ds| > 0 {
      var k := Kept(ds, os);
      KeptTwice(ds[1..], os);
      assert k[1..] == Kept(ds[1..], os);
      match Find(os, ds[0].key) {
        case None =>
        case Some(ov) =>
          var j := FindIn(os, ds[0].key);
          MergeIdempotent(ds[0].value, ov);
      }
    }
  }

  /** Every appended field is the source's own entry for its key. */
  lemma AddedAreSourceEntries(os: seq<Field>, ds: seq<Field>)
    requires WellFormed(Obj(os))
    ensures HeldBy(Added(os, ds), os)
  {
    var added := Added(os, ds);
    forall i | 0 <= i < |added|
      ensures Find(os, added[i].key) == Some(added[i].value) && WellFormed(added[i].value)
    {
      assert added[i] in os;
      var j :| 0 <= j < |os| && os[j] == added[i];
      FindDistinct(os, j);
    }
  }

  /** Keys present at index `j` of a list are keys of it. */
  lemma KeyAt(fs: seq<Field>, j: int)
    requires 0 <= j < |fs|
    ensures fs[j].key in Keys(fs)
  {
    assert Keys(fs)[j] == fs[j].key;
  }

  /** After a merge, the source's `i`-th key is a key of the result. */
  lemma MergedCoversKey(ds: seq<Field>, os: seq<Field>, i: int)
    requires 0 <= i < |os|
    ensures os[i].key in Keys(Kept(ds, os) + Added(os, ds))
  {
    var kept, added := Kept(ds, os), Added(os, ds);
    var m := kept + added;
    var k := os[i].key;
    if k in Keys(ds) {
      var j :| 0 <= j < |ds| && Keys(ds)[j] == k;
      assert m[j] == kept[j];
      KeyAt(m, j);
    } else {
      assert os[i] in added;
      var j :| 0 <= j < |added| && added[j] == os[i];
      assert m[|kept| + j] == added[j];
      KeyAt(m, |kept| + j);
    }
  }

  /** After a merge, every source key is a key of the result. */
  lemma MergedCoversSource(ds: seq<Field>, os: seq<Field>)
    ensures var m := Kept(ds, os) + Added(os, ds);
      forall i :: 0 <= i < |os| ==> os[i].key in Keys(m)
  {
    forall i | 0 <= i < |os| ensures os[i].key in Keys(Kept(ds, os) + Added(os, ds)) {
      MergedCoversKey(ds, os, i);
    }
  }

  /** A second merge of the same source appends nothing: every source key is already there. */
  lemma AddedAfterMerge(ds: seq<Field>, os: seq<Field>)
    ensures Added(os, Kept(ds, os) + Added(os, ds)) == []
  {
    MergedCoversSource(ds, os);
  }

  /** A second merge of the same source leaves every merged field as it is. */
  lemma {:induction false} KeptAfterMerge(d: Tree, o: Tree)
    requires d.Obj? && o.Obj?
    requires WellFormed(d) && WellFormed(o)
    ensures var m := Kept(d.fields, o.fields) + Added(o.fields, d.fields);
      Kept(m, o.fields) == m
    decreases d, 1
  {
    var ds, os := d.fields, o.fields;
    var kept, added := Kept(ds, os), Added(os, ds);
    assert Kept(kept, os) == kept by {
      assert forall i :: 0 <= i < |ds| ==> WellFormed(ds[i].value);
      KeptTwice(ds, os);
    }
    KeptOfAdded(ds, os);
    KeptConcat(kept, added, os);
  }

  /** The appended fields are already the source's own entries, so merging again keeps them. */
  lemma KeptOfAdded(ds: seq<Field>, os: seq<Field>)
    requires WellFormed(Obj(os))
    ensures Kept(Added(os, ds), os) == Added(os, ds)
  {
    AddedAreSourceEntries(os, ds);
    KeptFixed(Added(os, ds), os);
  }

  /** Applying the same override twice gives the same table as applying it once. */
  lemma {:induction false} MergeIdempotent(d: Tree, o: Tree)
    requires WellFormed(d) && WellFormed(o)
    ensures Merge(Merge(d, o), o) == Merge(d, o)
    decreases d, 2
  {
    if d.Leaf? || o.Leaf? {
      MergeSelf(o);
    } else {
      var m := Kept(d.fields, o.fields) + Added(o.fields, d.fields);
      KeptAfterMerge(d, o);
      AddedAfterMerge(d.fields, o.fields);
      assert m + [] == m;
    }
  }

  lemma {:induction false} FindConcat(a: seq<Field>, b: seq<Field>, k: string)
    requires k in Keys(a)
    ensures Find(a + b, k) == Find(a, k)
    decreases |a|
  {
    if a[0].key != k {
      assert (a + b)[1..] == a[1..] + b;
      assert k in Keys(a[1..]) by {
        var j :| 0 <= j < |a| && Keys(a)[j] == k;
        assert Keys(a[1..])[j - 1] == k;
      }
      FindConcat(a[1..], b, k);
    }
  }

  /** Looking a key up in the kept fields gives the target value merged with the source's. */
  lemma {:induction false} FindKept(ds: seq<Field>, os: seq<Field>, k: string)
    requires k in Keys(ds)
    ensures Find(Kept(ds, os), k) == Some(match Find(os, k)
                                         case None => Find(ds, k).value
                                         case Some(ov) => Merge(Find(ds, k).value, ov))
    decreases |ds|
  {
    if ds[0].key != k {
      assert k in Keys(ds[1..]) by {
        var j :| 0 <= j < |ds| && Keys(ds)[j] == k;
        assert Keys(ds[1..])[j - 1] == k;
      }
      FindKept(ds[1..], os, k);
    }
  }

  /** A merge keeps every target key, in target order, ahead of the appended source keys. */
  lemma MergeKeepsKeyOrder(ds: seq<Field>, os: seq<Field>)
    ensures Merge(Obj(ds), Obj(os)).Obj?
    ensures Keys(Merge(Obj(ds), Obj(os)).fields)[..|ds|] == Keys(ds)
  {
    var m := Kept(ds, os) + Added(os, ds);
    assert Keys(m)[..|ds|] == Keys(ds);
  }

  /** Leaf override: looking up a target key in the merge gives the target's value when the
      source does not name the key, and the source's value merged into it otherwise. */
  lemma MergeLookup(ds: seq<Field>, os: seq<Field>, k: string)
    requires k in Keys(ds)
    ensures RoleValue(Merge(Obj(ds), Obj(os)), k)
         == Some(match Find(os, k)
                 case None => Find(ds, k).value
                 case Some(ov) => Merge(Find(ds, k).value, ov))
  {
    var kept := Kept(ds, os);
    assert k in Keys(kept) by {
      var j :| 0 <= j < |ds| && Keys(ds)[j] == k;
      assert Keys(kept)[j] == k;
    }
    FindConcat(kept, Added(os, ds), k);
    FindKept(ds, os, k);
  }

  /** Every default role stays a key of the resolved registry, at its default position. */
  lemma ResolvedKeepsRoles(override: Option<seq<Field>>)
    ensures GetPluginNodeTypes(override).Obj?
    ensures Keys(GetPluginNodeTypes(override).fields)[..|DefaultPluginNodeTypes|] == Keys(DefaultPluginNodeTypes)
  {
    MergeKeepsKeyOrder(DefaultPluginNodeTypes, override.GetOr([]));
  }

  /** The default registry names fourteen roles with pairwise different type names. */
  lemma DefaultRegistryShape()
    ensures |DefaultPluginNodeTypes| == 14
    ensures NoDuplicates(Keys(DefaultPluginNodeTypes))
    ensures NoDuplicates(Values(DefaultPluginNodeTypes))
    ensures forall i :: 0 <= i < 14 ==> DefaultPluginNodeTypes[i].value.Leaf?
  {
    DefaultKeysDistinct();
    DefaultNamesDistinct();
  }

  lemma DefaultKeysDistinct()
    ensures NoDuplicates(Keys(DefaultPluginNodeTypes))
  {
  }

  lemma DefaultNamesDistinct()
    ensures NoDuplicates(Values(DefaultPluginNodeTypes))
  {
  }

  /** Resolving without an override (`undefined` or `null`) yields the frozen defaults. */
  lemma NoOverrideIsDefault()
    ensures GetPluginNodeTypes(None) == Obj(DefaultPluginNodeTypes)
    ensures GetPluginNodeTypes(None) == GetPluginNodeTypes(Some([]))
    ensures GetGithubApiTypes(None) == Obj(DefaultGithubApiTypes)
  {
    MergeEmptyOverride(DefaultPluginNodeTypes);
    MergeEmptyOverride(DefaultGithubApiTypes);
  }

  /** An override naming one existing key changes that key only: no key is added and every
      other key keeps its value. */
  lemma OverrideOneKey(ds: seq<Field>, k: string, v: Tree)
    requires k in Keys(ds)
    ensures var reg := Merge(Obj(ds), Obj([Field(k, v)]));
      && reg.Obj?
      && Keys(reg.fields) == Keys(ds)
      && RoleValue(reg, k) == Some(Merge(Find(ds, k).value, v))
      && forall j :: j in Keys(ds) && j != k ==> RoleValue(reg, j) == Find(ds, j)
  {
    var os := [Field(k, v)];
    assert Added(os, ds) == [];
    var kept := Kept(ds, os);
    assert kept + [] == kept;
    assert Keys(kept) == Keys(ds);
    MergeLookup(ds, os, k);
    forall j | j in Keys(ds) && j != k
      ensures RoleValue(Merge(Obj(ds), Obj(os)), j) == Find(ds, j)
    {
      MergeLookup(ds, os, j);
    }
  }

  /** Overriding `USER` renames that role only. */
  lemma RenameUserOnly(name: string)
    ensures var reg := GetPluginNodeTypes(Some([Field("USER", Leaf(name))]));
      && reg.Obj?
      && Keys(reg.fields) == Keys(DefaultPluginNodeTypes)
      && RoleValue(reg, "USER") == Some(Leaf(name))
      && forall k :: k in Keys(DefaultPluginNodeTypes) && k != "USER" ==> RoleValue(reg, k) == Find(DefaultPluginNodeTypes, k)
  {
    DefaultUserEntry();
    OverrideOneKey(DefaultPluginNodeTypes, "USER", Leaf(name));
    assert Merge(Leaf("GitHubUser"), Leaf(name)) == Leaf(name);
  }

  lemma DefaultUserEntry()
    ensures Find(DefaultPluginNodeTypes, "USER") == Some(Leaf("GitHubUser"))
    ensures "USER" in Keys(DefaultPluginNodeTypes)
  {
    var fs := DefaultPluginNodeTypes;
    forall j | 0 <= j < 8 ensures fs[j].key != "USER" {
      assert |fs[j].key| != |"USER"|;
    }
    FindFirst(fs, 8, "USER");
    assert Keys(fs)[8] == "USER";
  }

  /** The API table with no override is the default table. */
  lemma DefaultApiTypes()
    ensures GetGithubApiTypes(None) == Obj(DefaultGithubApiTypes)
  {
    MergeEmptyOverride(DefaultGithubApiTypes);
  }

  lemma ApiOrderField()
    ensures Find(DefaultGithubApiTypes, "DISCUSSION_ORDER_FIELD") == Some(DefaultGithubApiTypes[2].value)
  {
    var fs := DefaultGithubApiTypes;
    forall j | 0 <= j < 2 ensures fs[j].key != "DISCUSSION_ORDER_FIELD" {
      assert |fs[j].key| < |"DISCUSSION_ORDER_FIELD"|;
    }
    FindFirst(fs, 2, "DISCUSSION_ORDER_FIELD");
  }

  lemma ApiOrderDirection()
    ensures Find(DefaultGithubApiTypes, "ORDER_DIRECTION") == Some(DefaultGithubApiTypes[3].value)
  {
    var fs := DefaultGithubApiTypes;
    forall j | 0 <= j < 3 ensures fs[j].key != "ORDER_DIRECTION" {
      assert |fs[j].key| != |"ORDER_DIRECTION"|;
    }
    FindFirst(fs, 3, "ORDER_DIRECTION");
  }

  /** The API table offers exactly the two order fields and the two order directions. */
  lemma ApiTypeConstants()
    ensures var api := GetGithubApiTypes(None);
      && RoleValue(api, "DISCUSSION_ORDER_FIELD") == Some(Obj([Field("CREATED_AT", Leaf("CREATED_AT")), Field("UPDATED_AT", Leaf("UPDATED_AT"))]))
      && RoleValue(api, "ORDER_DIRECTION") == Some(Obj([Field("ASC", Leaf("ASC")), Field("DESC", Leaf("DESC"))]))
  {
    DefaultApiTypes();
    ApiOrderField();
    ApiOrderDirection();
  }
}

=== FILE: on_create_node.dfy ===
/**
 The engine's `onCreateNode` hook: decide whether the new node is one of the plugin's own
 types, let every sub-plugin and then the end user react to it, and for the plugin's own
 USER and REPOSITORY nodes download the avatar / open-graph image into a file node linked
 from a `...SharpOptimized` field. The same hook is inlined in `gatsby-node.js`.

 What the hook does is recorded as a trace of effects; what the hooks it calls do, and
 the download itself, are outside the model (`FileDeriver` stands for
 `createRemoteFileNode`).
 */
module Enrichment {
  import opened JsValues
  import opened NodeTypes
  import opened Plugins

  /** A node as Gatsby hands it over: its own fields and its `internal.type`. */
  datatype GatsbyNode = GatsbyNode(fields: Record, internalType: string)

  datatype Effect =
    | HookInvoked(owner: HookOwner, options: Record, isInternalType: bool)
    | RemoteFileRequested(url: string, parentNodeId: Value)
    | FieldCreated(name: string, value: Value)

  /** The effects of a hook run, and the error that ended it early, if any. */
  datatype Trace = Trace(effects: seq<Effect>, error: Option<JsError>)

  /** `createRemoteFileNode({url, parentNodeId, ...})`: the id of the file node it creates,
      or `None` when it yields nothing. */
  type FileDeriver = (string, Value) -> Option<Value>

  const ImageFieldSuffix: string := "SharpOptimized"

  predicate IsRemoteUrl(v: Value) {
    v.Str? && StartsWith(v.s, "http")
  }

  /** `createFileNodeFrom({node, key, fieldName})`: only a string value starting with `http`
      is downloaded; a file node that comes back is linked from the field `fieldName ?? key`. */
  function CreateFileNodeFrom(node: GatsbyNode, key: string, fieldName: Option<string>, derive: FileDeriver)
    : (effects: seq<Effect>)
    ensures |effects| <= 2
    ensures forall e :: e in effects ==> !e.HookInvoked?
    ensures !IsRemoteUrl(Get(node.fields, key)) ==> effects == []
    ensures IsRemoteUrl(Get(node.fields, key)) ==>
      |effects| >= 1 && effects[0] == RemoteFileRequested(Get(node.fields, key).s, Get(node.fields, "id"))
  {
    var v := Get(node.fields, key);
    if !IsRemoteUrl(v) then []
    else
      var url := v.s;
      var parent := Get(node.fields, "id");
      [RemoteFileRequested(url, parent)] +
      match derive(url, parent)
      case Some(fileNodeId) => [FieldCreated(fieldName.GetOr(key), fileNodeId)]
      case None => []
  }

  /** When a file node comes back exactly one field is created, named `fieldName ?? key` and
      holding the file node's id; when none comes back no field is created. */
  lemma FileFieldNaming(node: GatsbyNode, key: string, fieldName: Option<string>, derive: FileDeriver)
    requires IsRemoteUrl(Get(node.fields, key))
    ensures var effects := CreateFileNodeFrom(node, key, fieldName, derive);
      var request := derive(Get(node.fields, key).s, Get(node.fields, "id"));
      && (request.Some? ==> effects[1..] == [FieldCreated(if fieldName.Some? then fieldName.value else key, request.value)])
      && (request.None? ==> effects[1..] == [])
  {
  }

  /** The sub-plugin hook loop: a plugin without a module makes `resolvedPlugin.onCreateNode`
      throw; the others are called, in order, when their module has the hook. */
  function SubPluginHooks(ps: seq<SubPlugin>, isInternal: bool): (t: Trace)
    ensures |t.effects| <= |ps|
    ensures t.error.None? <==> forall i :: 0 <= i < |ps| ==> ps[i].pluginModule.Some?
    ensures forall e :: e in t.effects ==> e.HookInvoked? && e.owner.SubPluginHook? && e.isInternalType == isInternal
    decreases |ps|
  {
    if |ps| == 0 then Trace([], None)
    else
      var p := ps[0];
      if p.pluginModule.None? then Trace([], Some(TypeError("cannot read properties of undefined (reading 'onCreateNode')")))
      else
        var here := if HasHook(p, OnCreateNodeHook)
                    then [HookInvoked(SubPluginHook(p.name), ForwardedOptions(p), isInternal)] else [];
        var rest := SubPluginHooks(ps[1..], isInternal);
        Trace(here + rest.effects, rest.error)
  }

  /** Every sub-plugin that has the hook is called once, in configuration order, with its
      own options minus `token`. */
  lemma {:induction false} SubPluginHooksInOrder(ps: seq<SubPlugin>, isInternal: bool)
    requires forall i :: 0 <= i < |ps| ==> ps[i].pluginModule.Some?
    ensures var hooked := HookedPlugins(ps, OnCreateNodeHook);
      var t := SubPluginHooks(ps, isInternal);
      && |t.effects| == |hooked|
      && forall i :: 0 <= i < |hooked| ==>
           t.effects[i] == HookInvoked(SubPluginHook(hooked[i].name), ForwardedOptions(hooked[i]), isInternal)
    decreases |ps|
  {
    if |ps| != 0 {
      SubPluginHooksInOrder(ps[1..], isInternal);
    }
  }

  /** One built-in image rule (`handleImageOptimizationForNode`): it applies to nodes whose
      type is the registry value of `role`, unless the option `flag` is exactly `false`,
      and only when the node has the field `key` at all. */
  function ImageRule(reg: Tree, settings: Record, node: GatsbyNode, role: string, key: string, flag: string,
                     derive: FileDeriver): (effects: seq<Effect>)
    ensures forall e :: e in effects ==> !e.HookInvoked?
    ensures effects != [] ==>
      RoleValue(reg, role) == Some(Leaf(node.internalType)) && Get(settings, flag) != Bool(false) &&
      key in node.fields && IsRemoteUrl(node.fields[key])
    ensures RoleValue(reg, role) == Some(Leaf(node.internalType)) && Get(settings, flag) != Bool(false) && key in node.fields ==>
      effects == CreateFileNodeFrom(node, key, Some(key + ImageFieldSuffix), derive)
  {
    if RoleValue(reg, role) != Some(Leaf(node.internalType)) then []
    else if Get(settings, flag) == Bool(false) then []
    else if key !in node.fields then []
    else CreateFileNodeFrom(node, key, Some(key + ImageFieldSuffix), derive)
  }

  /** The two built-in rules in order: the user avatar, then the repository image. */
  function ImageRules(reg: Tree, settings: Record, node: GatsbyNode, derive: FileDeriver): (effects: seq<Effect>)
    ensures forall e :: e in effects ==> !e.HookInvoked?
  {
    ImageRule(reg, settings, node, "USER", "avatarUrl", "generateOptimizedGitHubUserAvatarUrl", derive) +
    ImageRule(reg, settings, node, "REPOSITORY", "openGraphImageUrl",
              "generateOptimizedGitHubRepositoryOpenGraphImageUrl", derive)
  }

  /** The hook once the registry `reg` is resolved. */
  function OnCreateNodeWith(reg: Tree, opts: EngineOptions, node: GatsbyNode, derive: FileDeriver): (t: Trace)
    ensures opts.plugins.UndefinedList? || opts.plugins.NullList? ==> t == Trace([], Some(TypeError("pluginOptions.plugins is not iterable")))
    ensures !IsRegistered(reg, node.internalType) ==> forall e :: e in t.effects ==> e.HookInvoked?
    ensures forall e :: e in t.effects && e.HookInvoked? ==> e.isInternalType == IsRegistered(reg, node.internalType)
    ensures t.error.None? && IsRegistered(reg, node.internalType) ==>
      forall e :: e in ImageRules(reg, opts.settings, node, derive) ==> e in t.effects
    ensures t.error.None? ==> forall e :: e in t.effects && !e.HookInvoked? ==>
      IsRegistered(reg, node.internalType) && e in ImageRules(reg, opts.settings, node, derive)
  {
    var isInternal := IsRegistered(reg, node.internalType);
    match opts.plugins
    case Listed(ps) =>
      var hooks := SubPluginHooks(ps, isInternal);
      if hooks.error.Some? then hooks
      else
        var endUser := if opts.hasOnCreateNode
                       then [HookInvoked(EndUserHook, RemoveKey(opts.settings, "token"), isInternal)] else [];
        var images := if isInternal then ImageRules(reg, opts.settings, node, derive) else [];
        Trace(hooks.effects + endUser + images, None)
    case _ => Trace([], Some(TypeError("pluginOptions.plugins is not iterable")))
  }

  /** With both image flags exactly `false` the hook downloads and derives nothing: every
      effect it has is a hook call. */
  lemma DisabledFlagsDeriveNothing(reg: Tree, opts: EngineOptions, node: GatsbyNode, derive: FileDeriver)
    requires Get(opts.settings, "generateOptimizedGitHubUserAvatarUrl") == Bool(false)
    requires Get(opts.settings, "generateOptimizedGitHubRepositoryOpenGraphImageUrl") == Bool(false)
    ensures forall e :: e in OnCreateNodeWith(reg, opts, node, derive).effects ==> e.HookInvoked?
  {
    assert ImageRules(reg, opts.settings, node, derive) == [];
  }

  /** Hooks run in a fixed order: every sub-plugin's hook in configuration order, then the
      end user's; the built-in image derivation only follows them. */
  lemma HookOrder(reg: Tree, opts: EngineOptions, node: GatsbyNode, derive: FileDeriver)
    requires opts.plugins.Listed?
    requires forall i :: 0 <= i < |opts.plugins.items| ==> opts.plugins.items[i].pluginModule.Some?
    ensures var t := OnCreateNodeWith(reg, opts, node, derive);
      var hooked := HookedPlugins(opts.plugins.items, OnCreateNodeHook);
      var internal := IsRegistered(reg, node.internalType);
      var n := |hooked| + (if opts.hasOnCreateNode then 1 else 0);
      && t.error.None?
      && n <= |t.effects|
      && (forall i :: 0 <= i < |hooked| ==>
            t.effects[i] == HookInvoked(SubPluginHook(hooked[i].name), ForwardedOptions(hooked[i]), internal))
      && (opts.hasOnCreateNode ==>
            t.effects[|hooked|] == HookInvoked(EndUserHook, RemoveKey(opts.settings, "token"), internal))
      && (forall i :: n <= i < |t.effects| ==> !t.effects[i].HookInvoked?)
  {
    var internal := IsRegistered(reg, node.internalType);
    SubPluginHooksInOrder(opts.plugins.items, internal);
    var t := OnCreateNodeWith(reg, opts, node, derive);
    var n := |HookedPlugins(opts.plugins.items, OnCreateNodeHook)| + (if opts.hasOnCreateNode then 1 else 0);
    forall i | n <= i < |t.effects| ensures !t.effects[i].HookInvoked? {
      if internal {
        assert t.effects[i] in ImageRules(reg, opts.settings, node, derive);
      }
    }
  }

  /** A registry value found under a role is one of the registry's values. */
  lemma RoleValueIsRegistered(reg: Tree, role: string, typeName: string)
    requires RoleValue(reg, role) == Some(Leaf(typeName))
    ensures IsRegistered(reg, typeName)
  {
    var i :| 0 <= i < |reg.fields| && reg.fields[i] == Field(role, Leaf(typeName));
    assert TypeValues(reg)[i] == Leaf(typeName);
  }

  /** The avatar rule on a USER node with an `http` avatar URL and the flag not `false`:
      the URL is downloaded and a file node that comes back is linked from
      `avatarUrlSharpOptimized`. */
  lemma AvatarRule(reg: Tree, settings: Record, node: GatsbyNode, derive: FileDeriver)
    requires RoleValue(reg, "USER") == Some(Leaf(node.internalType))
    requires Get(settings, "generateOptimizedGitHubUserAvatarUrl") != Bool(false)
    requires "avatarUrl" in node.fields && IsRemoteUrl(node.fields["avatarUrl"])
    ensures var images := ImageRules(reg, settings, node, derive);
      var url := node.fields["avatarUrl"].s;
      && RemoteFileRequested(url, Get(node.fields, "id")) in images
      && (derive(url, Get(node.fields, "id")).Some? ==>
            FieldCreated("avatarUrlSharpOptimized", derive(url, Get(node.fields, "id")).value) in images)
  {
    var rule := ImageRule(reg, settings, node, "USER", "avatarUrl", "generateOptimizedGitHubUserAvatarUrl", derive);
    var images := ImageRules(reg, settings, node, derive);
    AvatarFieldName();
    assert images[..|rule|] == rule;
    assert rule[0] in images;
    if |rule| == 2 {
      assert rule[1] in images;
    }
  }

  /** The repository rule on a REPOSITORY node with an `http` Open Graph image URL and its
      flag not `false`: the URL is downloaded and a file node that comes back is linked from
      `openGraphImageUrlSharpOptimized`. */
  lemma OpenGraphRule(reg: Tree, settings: Record, node: GatsbyNode, derive: FileDeriver)
    requires RoleValue(reg, "REPOSITORY") == Some(Leaf(node.internalType))
    requires Get(settings, "generateOptimizedGitHubRepositoryOpenGraphImageUrl") != Bool(false)
    requires "openGraphImageUrl" in node.fields && IsRemoteUrl(node.fields["openGraphImageUrl"])
    ensures var images := ImageRules(reg, settings, node, derive);
      var url := node.fields["openGraphImageUrl"].s;
      && RemoteFileRequested(url, Get(node.fields, "id")) in images
      && (derive(url, Get(node.fields, "id")).Some? ==>
            FieldCreated("openGraphImageUrlSharpOptimized", derive(url, Get(node.fields, "id")).value) in images)
  {
    var first := ImageRule(reg, settings, node, "USER", "avatarUrl", "generateOptimizedGitHubUserAvatarUrl", derive);
    var rule := ImageRule(reg, settings, node, "REPOSITORY", "openGraphImageUrl",
                          "generateOptimizedGitHubRepositoryOpenGraphImageUrl", derive);
    var images := ImageRules(reg, settings, node, derive);
    OpenGraphFieldName();
    assert images[|first|..] == rule;
    assert rule[0] in images;
    if |rule| == 2 {
      assert rule[1] in images;
    }
  }

  lemma OpenGraphFieldName()
    ensures "openGraphImageUrl" + ImageFieldSuffix == "openGraphImageUrlSharpOptimized"
  {
  }

  lemma AvatarFieldName()
    ensures "avatarUrl" + ImageFieldSuffix == "avatarUrlSharpOptimized"
  {
  }

  /** In the whole hook: a USER node with an `http` avatar URL has it downloaded, unless the
      avatar flag is exactly `false`, after the hooks have run. */
  lemma AvatarDerived(reg: Tree, opts: EngineOptions, node: GatsbyNode, derive: FileDeriver)
    requires opts.plugins.Listed?
    requires forall i :: 0 <= i < |opts.plugins.items| ==> opts.plugins.items[i].pluginModule.Some?
    requires RoleValue(reg, "USER") == Some(Leaf(node.internalType))
    requires Get(opts.settings, "generateOptimizedGitHubUserAvatarUrl") != Bool(false)
    requires "avatarUrl" in node.fields && IsRemoteUrl(node.fields["avatarUrl"])
    ensures var t := OnCreateNodeWith(reg, opts, node, derive);
      var url := node.fields["avatarUrl"].s;
      && RemoteFileRequested(url, Get(node.fields, "id")) in t.effects
      && (derive(url, Get(node.fields, "id")).Some? ==>
            FieldCreated("avatarUrlSharpOptimized", derive(url, Get(node.fields, "id")).value) in t.effects)
  {
    RoleValueIsRegistered(reg, "USER", node.internalType);
    AvatarRule(reg, opts.settings, node, derive);
  }

  /** The presence check is `key in node`: a present field whose value is not an `http`
      string passes it and is then turned away by the string guard, so nothing is derived. */
  lemma PresentNonUrlIgnored(reg: Tree, settings: Record, node: GatsbyNode, role: string, key: string, flag: string,
                             derive: FileDeriver)
    requires key in node.fields && !IsRemoteUrl(node.fields[key])
    ensures ImageRule(reg, settings, node, role, key, flag, derive) == []
  {
  }

  /** The whole hook: `onCreateNode(args, pluginOptions)`. */
  function OnCreateNode(opts: EngineOptions, node: GatsbyNode, derive: FileDeriver): (t: Trace)
    ensures opts.plugins.UndefinedList? || opts.plugins.NullList? ==> t.error.Some? && t.effects == []
    ensures !IsRegistered(GetPluginNodeTypes(opts.pluginNodeTypes), node.internalType) ==>
      forall e :: e in t.effects ==> e.HookInvoked?
  {
    OnCreateNodeWith(GetPluginNodeTypes(opts.pluginNodeTypes), opts, node, derive)
  }
}

=== FILE: plugins.dfy ===
/**
 The engine's configuration as the Gatsby hooks receive it: the top-level plugin options,
 the list of sub-plugins with their own options, and what each sub-plugin module offers.
 Also the two per-plugin decisions every hook shares: which GitHub client a sub-plugin is
 given (its own `token` wins over the top-level one) and which options it is handed (its
 own, without `token`).
 */
module Plugins {
  import opened JsValues
  import opened NodeTypes
  import opened Fragments

  /** The GraphQL client `createGraphQLWithAuth` returns: the bare client when the token is
      not a string, otherwise one whose requests carry `authorization: token <token>`. */
  datatype Client = Unauthenticated | Authenticated(token: string)

  /** What a sub-plugin's `sourceNodes` receives as `githubSourcePlugin`. */
  datatype SourceContext = SourceContext(
    graphql: Client,
    githubPlainResolverFields: FragmentTable,
    githubApiTypes: Tree,
    pluginNodeTypes: Tree)

  /** How a sub-plugin's `sourceNodes` settles: with a value (`Undefined` when it returned
      nothing) or by throwing / rejecting. */
  datatype SourceOutcome = Returned(data: Value) | Failed(reason: string)

  /** The hooks a sub-plugin module exports. `sourceNodes` is modelled by what it returns;
      the other two hooks only by whether they are functions. */
  datatype PluginModule = PluginModule(
    sourceNodes: Option<(SourceContext, Record) -> SourceOutcome>,
    hasOnCreateNode: bool,
    hasCreateSchemaCustomization: bool)

  /** One entry of `pluginOptions.plugins`: `{ name, module, pluginOptions }`. A `module` or
      `pluginOptions` that is `null` or `undefined` is `None`. */
  datatype SubPlugin = SubPlugin(name: Value, pluginModule: Option<PluginModule>, options: Option<Record>)

  /** `pluginOptions.plugins`, keeping apart the two nullish values because the hooks
      default them differently. */
  datatype PluginList = UndefinedList | NullList | Listed(items: seq<SubPlugin>)

  /** What `createCustomMapper(...)` returns, restricted to its entries that are functions. */
  type CustomMapper = map<string, Value -> Value>

  /** The top-level plugin options. `settings` holds the plain-data entries (`token`, the
      two image flags, ...); the entries that are not plain data have fields of their own:
      the `pluginNodeTypes` override (`None` when nullish), the sub-plugin list, the
      `createCustomMapper` factory and whether the two end-user hooks are functions. */
  datatype EngineOptions = EngineOptions(
    settings: Record,
    pluginNodeTypes: Option<seq<Field>>,
    plugins: PluginList,
    createCustomMapper: Option<Tree -> CustomMapper>,
    hasOnCreateNode: bool,
    hasCreateSchemaCustomization: bool)

  /** Whose hook the engine calls: a sub-plugin's (by its name) or the end user's. */
  datatype HookOwner = SubPluginHook(plugin: Value) | EndUserHook

  /** The two per-node hooks a sub-plugin module may export besides `sourceNodes`. */
  datatype HookKind = OnCreateNodeHook | SchemaCustomizationHook

  predicate HasHook(p: SubPlugin, kind: HookKind) {
    p.pluginModule.Some? &&
    match kind
    case OnCreateNodeHook => p.pluginModule.value.hasOnCreateNode
    case SchemaCustomizationHook => p.pluginModule.value.hasCreateSchemaCustomization
  }

  /** Reference: the sub-plugins of a list that export the hook, in list order. */
  function HookedPlugins(ps: seq<SubPlugin>, kind: HookKind): (hooked: seq<SubPlugin>)
    ensures |hooked| <= |ps|
    ensures forall p :: p in hooked ==> p in ps && HasHook(p, kind)
    decreases |ps|
  {
    if |ps| == 0 then [] else (if HasHook(ps[0], kind) then [ps[0]] else []) + HookedPlugins(ps[1..], kind)
  }

  /** `userPluginOptions ?? {}` */
  const EmptyOptions: EngineOptions :=
    EngineOptions(map[], None, UndefinedList, None, false, false)

  /** `createGraphQLWithAuth(token)` */
  function ClientFor(token: Value): (c: Client)
    ensures c.Authenticated? <==> token.Str?
    ensures c.Authenticated? ==> token == Str(c.token)
  {
    if token.Str? then Authenticated(token.s) else Unauthenticated
  }

  /** The options object a sub-plugin's hook runs with: its own `pluginOptions` (an absent
      one reads as `{}`), copied. */
  function OwnOptions(p: SubPlugin): Record {
    p.options.GetOr(map[])
  }

  /** The client for a sub-plugin: `createGraphQLWithAuth(customToken ?? token)`. */
  function SubPluginClient(p: SubPlugin, topToken: Value): Client {
    ClientFor(Coalesce(Get(OwnOptions(p), "token"), topToken))
  }

  /** The options a sub-plugin hook is handed: its own, minus `token`. */
  function ForwardedOptions(p: SubPlugin): (r: Record)
    ensures "token" !in r
    ensures forall k :: k in OwnOptions(p) && k != "token" ==> k in r && r[k] == OwnOptions(p)[k]
    ensures forall k :: k in r ==> k in OwnOptions(p)
  {
    RemoveKey(OwnOptions(p), "token")
  }

  /** A sub-plugin's own token decides its client whenever it is set (even to a non-string,
      which leaves the plugin unauthenticated); only when it is `null` or `undefined` does
      the top-level token apply. */
  lemma TokenChoice(p: SubPlugin, topToken: Value)
    ensures var own := Get(OwnOptions(p), "token");
      && (!IsNullish(own) ==> (SubPluginClient(p, topToken).Authenticated? <==> own.Str?))
      && (own.Str? ==> SubPluginClient(p, topToken) == Authenticated(own.s))
      && (IsNullish(own) ==> SubPluginClient(p, topToken) == ClientFor(topToken))
  {
  }
}

=== FILE: schema.dfy ===
/**
 The engine's `createSchemaCustomization` hook: declare every registered type as a Node
 with a `githubId: String!` field, declare the two image fields unless the avatar flag is
 `false`, then let every sub-plugin and finally the end user customise the schema.
 */
module Schema {
  import opened JsValues
  import opened NodeTypes
  import opened Plugins

  datatype SchemaEffect =
    /** `createTypes(typeDefs)` with the given SDL text. */
    | TypesCreated(typeDefs: string)
    /** `createTypes(...)` declaring `avatarUrlSharpOptimized` on the user type and
        `openGraphImageUrlSharpOptimized` on the repository type. */
    | ImageTypesCreated(userType: string, repositoryType: string)
    | SchemaHookInvoked(owner: HookOwner, options: Record)

  datatype SchemaTrace = SchemaTrace(effects: seq<SchemaEffect>, error: Option<JsError>)

  const AvatarFlag: string := "generateOptimizedGitHubUserAvatarUrl"

  /** The baseline declaration of one type. */
  function Declaration(typeName: string): string {
    "type " + typeName + " implements Node { githubId: String! }"
  }

  /** The first `createTypes` argument: one declaration per registry value, in registry
      order, joined by newlines. */
  function BaselineTypeDefs(reg: Tree): string {
    var values := TypeValues(reg);
    Join(seq(|values|, i requires 0 <= i < |values| => Declaration(TypeString(values[i]))), "\n")
  }

  /** `s.split(sep)` */
  function Split(s: string, sep: char): (parts: seq<string>)
    ensures |parts| >= 1
    decreases |s|
  {
    if |s| == 0 then [""]
    else
      var rest := Split(s[1..], sep);
      if s[0] == sep then [""] + rest else [[s[0]] + rest[0]] + rest[1..]
  }

  lemma {:induction false} SplitPlain(a: string, sep: char)
    requires sep !in a
    ensures Split(a, sep) == [a]
    decreases |a|
  {
    if |a| != 0 {
      assert sep !in a[1..] by {
        forall i | 0 <= i < |a[1..]| ensures a[1..][i] != sep {
          assert a[1..][i] == a[i + 1];
        }
      }
      SplitPlain(a[1..], sep);
      assert [a[0]] + a[1..] == a;
    }
  }

  lemma {:induction false} SplitAtFirst(a: string, sep: char, b: string)
    requires sep !in a
    ensures Split(a + [sep] + b, sep) == [a] + Split(b, sep)
    decreases |a|
  {
    var s := a + [sep] + b;
    if |a| == 0 {
      assert s == [sep] + b;
      assert s[1..] == b;
    } else {
      assert s[1..] == a[1..] + [sep] + b;
      assert sep !in a[1..] by {
        forall i | 0 <= i < |a[1..]| ensures a[1..][i] != sep {
          assert a[1..][i] == a[i + 1];
        }
      }
      SplitAtFirst(a[1..], sep, b);
      assert [a[0]] + a[1..] == a;
    }
  }

  /** Splitting a join at its separator gives back the parts, when no part contains it. */
  lemma {:induction false} SplitJoin(parts: seq<string>, sep: char)
    requires |parts| >= 1
    requires forall i :: 0 <= i < |parts| ==> sep !in parts[i]
    ensures Split(Join(parts, [sep]), sep) == parts
    decreases |parts|
  {
    if |parts| == 1 {
      SplitPlain(parts[0], sep);
    } else {
      SplitJoin(parts[1..], sep);
      SplitAtFirst(parts[0], sep, Join(parts[1..], [sep]));
      assert [parts[0]] + parts[1..] == parts;
    }
  }

  lemma DeclarationOneLine(t: string)
    requires '\n' !in t
    ensures '\n' !in Declaration(t)
  {
    var d := Declaration(t);
    assert d == "type " + t + " implements Node { githubId: String! }";
    forall j | 0 <= j < |d| ensures d[j] != '\n' {
      if 5 <= j < 5 + |t| {
        assert d[j] == t[j - 5];
      }
    }
  }

  /** The baseline text holds exactly one line per registry value, in registry order, each
      declaring that type with `githubId: String!`, as long as type names have no newline. */
  lemma BaselineLines(reg: Tree)
    requires |TypeValues(reg)| >= 1
    requires forall i :: 0 <= i < |TypeValues(reg)| ==> '\n' !in TypeString(TypeValues(reg)[i])
    ensures var lines := Split(BaselineTypeDefs(reg), '\n');
      && |lines| == |TypeValues(reg)|
      && forall i :: 0 <= i < |lines| ==> lines[i] == Declaration(TypeString(TypeValues(reg)[i]))
  {
    var values := TypeValues(reg);
    var decls := seq(|values|, i requires 0 <= i < |values| => Declaration(TypeString(values[i])));
    forall i | 0 <= i < |decls| ensures '\n' !in decls[i] {
      DeclarationOneLine(TypeString(values[i]));
    }
    assert "\n" == ['\n'];
    SplitJoin(decls, '\n');
  }

  /** The engine's own `createTypes` calls: the baseline, then the image fields unless the
      avatar flag is exactly `false` (the repository flag is not consulted). */
  function TypeDefinitions(reg: Tree, settings: Record): (effects: seq<SchemaEffect>)
    ensures 1 <= |effects| <= 2
    ensures effects[0] == TypesCreated(BaselineTypeDefs(reg))
    ensures |effects| == 2 <==> Get(settings, AvatarFlag) != Bool(false)
    ensures |effects| == 2 ==> effects[1] == ImageTypesCreated(RoleKey(reg, "USER"), RoleKey(reg, "REPOSITORY"))
  {
    [TypesCreated(BaselineTypeDefs(reg))] +
    if Get(settings, AvatarFlag) != Bool(false)
    then [ImageTypesCreated(RoleKey(reg, "USER"), RoleKey(reg, "REPOSITORY"))]
    else []
  }

  /** The sub-plugin loop: `resolvedPlugin?.createSchemaCustomization?.(...)` calls the hook
      of every plugin whose module has one, with its options minus `token`. */
  function SubPluginSchemaHooks(ps: seq<SubPlugin>): (effects: seq<SchemaEffect>)
    ensures |effects| <= |ps|
    ensures forall e :: e in effects ==> e.SchemaHookInvoked? && e.owner.SubPluginHook?
    decreases |ps|
  {
    if |ps| == 0 then []
    else
      var p := ps[0];
      (if HasHook(p, SchemaCustomizationHook)
       then [SchemaHookInvoked(SubPluginHook(p.name), ForwardedOptions(p))] else [])
      + SubPluginSchemaHooks(ps[1..])
  }

  /** Every plugin with the hook is called once, in configuration order; plugins without a
      module or without the hook are passed over. */
  lemma {:induction false} SchemaHooksFollowList(ps: seq<SubPlugin>)
    ensures var hooked := HookedPlugins(ps, SchemaCustomizationHook);
      var effects := SubPluginSchemaHooks(ps);
      && |effects| == |hooked|
      && forall i :: 0 <= i < |hooked| ==>
           effects[i] == SchemaHookInvoked(SubPluginHook(hooked[i].name), ForwardedOptions(hooked[i]))
    decreases |ps|
  {
    if |ps| != 0 {
      SchemaHooksFollowList(ps[1..]);
    }
  }

  /** The hook once the registry `reg` is resolved: the engine's own declarations, then the
      sub-plugin hooks (`plugins` defaults to `[]` only when it is `undefined`; `null` makes
      the loop throw), then the end user's hook when it is a function. */
  function CreateSchemaCustomizationWith(reg: Tree, opts: EngineOptions): (t: SchemaTrace)
    ensures |t.effects| >= 1 && t.effects[0] == TypesCreated(BaselineTypeDefs(reg))
    ensures t.error.Some? <==> opts.plugins.NullList?
    ensures t.error.Some? ==> t.effects == TypeDefinitions(reg, opts.settings)
    ensures t.error.None? && opts.hasCreateSchemaCustomization ==>
      t.effects[|t.effects| - 1] == SchemaHookInvoked(EndUserHook, RemoveKey(opts.settings, "token"))
    ensures var own := TypeDefinitions(reg, opts.settings);
      && |own| <= |t.effects|
      && t.effects[..|own|] == own
      && forall i :: |own| <= i < |t.effects| ==> t.effects[i].SchemaHookInvoked?
  {
    var own := TypeDefinitions(reg, opts.settings);
    if opts.plugins.NullList? then SchemaTrace(own, Some(TypeError("plugins is not iterable")))
    else
      var ps := if opts.plugins.Listed? then opts.plugins.items else [];
      var endUser := if opts.hasCreateSchemaCustomization
                     then [SchemaHookInvoked(EndUserHook, RemoveKey(opts.settings, "token"))] else [];
      SchemaTrace(own + SubPluginSchemaHooks(ps) + endUser, None)
  }

  /** The engine itself makes one or two `createTypes` calls, whatever the configuration. */
  lemma CreateTypesCount(reg: Tree, opts: EngineOptions)
    ensures var t := CreateSchemaCustomizationWith(reg, opts);
      var n := |TypeDefinitions(reg, opts.settings)|;
      && 1 <= n <= 2
      && forall i :: 0 <= i < |t.effects| ==> (t.effects[i].SchemaHookInvoked? <==> i >= n)
  {
  }

  /** The whole hook in order: the engine's declarations, then every sub-plugin hook in
      configuration order, then the end user's hook, which is called only when it is a
      function. */
  lemma SchemaHookOrder(reg: Tree, opts: EngineOptions)
    requires !opts.plugins.NullList?
    ensures var t := CreateSchemaCustomizationWith(reg, opts);
      var own := TypeDefinitions(reg, opts.settings);
      var hooked := HookedPlugins(if opts.plugins.Listed? then opts.plugins.items else [], SchemaCustomizationHook);
      && t.error.None?
      && |t.effects| == |own| + |hooked| + (if opts.hasCreateSchemaCustomization then 1 else 0)
      && (forall i :: 0 <= i < |hooked| ==>
            t.effects[|own| + i] == SchemaHookInvoked(SubPluginHook(hooked[i].name), ForwardedOptions(hooked[i])))
      && (opts.hasCreateSchemaCustomization ==>
            t.effects[|t.effects| - 1] == SchemaHookInvoked(EndUserHook, RemoveKey(opts.settings, "token")))
      && (!opts.hasCreateSchemaCustomization ==>
            forall i :: 0 <= i < |t.effects| && t.effects[i].SchemaHookInvoked? ==> !t.effects[i].owner.EndUserHook?)
  {
    var ps := if opts.plugins.Listed? then opts.plugins.items else [];
    var own := TypeDefinitions(reg, opts.settings);
    var endUser := if opts.hasCreateSchemaCustomization
                   then [SchemaHookInvoked(EndUserHook, RemoveKey(opts.settings, "token"))] else [];
    SchemaHooksFollowList(ps);
    var t := CreateSchemaCustomizationWith(reg, opts);
    assert t.effects == own + SubPluginSchemaHooks(ps) + endUser;
    if !opts.hasCreateSchemaCustomization {
      forall i | 0 <= i < |t.effects| && t.effects[i].SchemaHookInvoked?
        ensures !t.effects[i].owner.EndUserHook?
      {
        if i >= |own| {
          assert t.effects[i] in SubPluginSchemaHooks(ps);
        }
      }
    }
  }

  /** The image declarations depend on the avatar flag alone: the repository flag, or any
      other option, never changes them. */
  lemma RepositoryFlagIgnored(reg: Tree, s1: Record, s2: Record)
    requires Get(s1, AvatarFlag) == Get(s2, AvatarFlag)
    ensures TypeDefinitions(reg, s1) == TypeDefinitions(reg, s2)
  {
  }

  /** The whole hook: `createSchemaCustomization(args, pluginOptions)`. */
  function CreateSchemaCustomization(opts: EngineOptions): (t: SchemaTrace)
    ensures |t.effects| >= 1 && t.effects[0] == TypesCreated(BaselineTypeDefs(GetPluginNodeTypes(opts.pluginNodeTypes)))
    ensures t.error.Some? <==> opts.plugins.NullList?
  {
    CreateSchemaCustomizationWith(GetPluginNodeTypes(opts.pluginNodeTypes), opts)
  }
}

=== FILE: sorting.dfy ===
/**
 The list operations the discussions provider is built from: flattening a list of lists
 (the `reduce((previous, current) => [...previous, ...current], [])` idiom) and the
 stable sort `Array.prototype.sort` performs, keyed by an integer the comparator
 subtracts. The sort is specified independently of its implementation: its result is the
 one arrangement that is ordered by key and keeps equal-key elements in input order.
 */
module Sorting {

  /** `xss.reduce((previous, current) => [...previous, ...current], [])`: a left fold. */
  function ReduceConcat<T>(xss: seq<seq<T>>): seq<T>
    decreases |xss|
  {
    if |xss| == 0 then [] else ReduceConcat(xss[..|xss| - 1]) + xss[|xss| - 1]
  }

  /** Reference: the lists laid end to end, first list first. */
  function Flatten<T>(xss: seq<seq<T>>): seq<T>
    decreases |xss|
  {
    if |xss| == 0 then [] else xss[0] + Flatten(xss[1..])
  }

  function SumLengths<T>(xss: seq<seq<T>>): nat
    decreases |xss|
  {
    if |xss| == 0 then 0 else |xss[0]| + SumLengths(xss[1..])
  }

  lemma {:induction false} FlattenSnoc<T>(xss: seq<seq<T>>, ys: seq<T>)
    ensures Flatten(xss + [ys]) == Flatten(xss) + ys
    decreases |xss|
  {
    if |xss| == 0 {
      assert (xss + [ys])[1..] == [];
    } else {
      assert (xss + [ys])[1..] == xss[1..] + [ys];
      FlattenSnoc(xss[1..], ys);
    }
  }

  /** The fold the source writes is the plain concatenation, in list order. */
  lemma {:induction false} ReduceIsFlatten<T>(xss: seq<seq<T>>)
    ensures ReduceConcat(xss) == Flatten(xss)
    decreases |xss|
  {
    if |xss| != 0 {
      var init := xss[..|xss| - 1];
      ReduceIsFlatten(init);
      FlattenSnoc(init, xss[|xss| - 1]);
      assert init + [xss[|xss| - 1]] == xss;
    }
  }

  /** The concatenation is exactly as long as the lists together. */
  lemma {:induction false} FlattenLength<T>(xss: seq<seq<T>>)
    ensures |Flatten(xss)| == SumLengths(xss)
    decreases |xss|
  {
    if |xss| != 0 {
      FlattenLength(xss[1..]);
    }
  }

  // ---------------------------------------------------------------------------
  // Stable sort by an integer key

  predicate SortedBy<T>(s: seq<T>, key: T -> int) {
    forall i, j :: 0 <= i < j < |s| ==> key(s[i]) <= key(s[j])
  }

  /** The elements of `s` whose key is `k`, in the order `s` has them. */
  function WithKey<T>(s: seq<T>, key: T -> int, k: int): seq<T>
    decreases |s|
  {
    if |s| == 0 then [] else (if key(s[0]) == k then [s[0]] else []) + WithKey(s[1..], key, k)
  }

  /** Places `x` before the first element whose key is not below its own. */
  function Insert<T>(x: T, s: seq<T>, key: T -> int): (r: seq<T>)
    ensures |r| == |s| + 1
    ensures multiset(r) == multiset(s) + multiset{x}
    decreases |s|
  {
    if |s| == 0 || key(x) <= key(s[0]) then [x] + s
    else
      assert s == [s[0]] + s[1..];
      [s[0]] + Insert(x, s[1..], key)
  }

  /** Insertion sort from the back: each element goes in front of the equal-key elements
      that follow it in the input, which keeps equal keys in input order. */
  function SortBy<T>(s: seq<T>, key: T -> int): (r: seq<T>)
    ensures |r| == |s|
    ensures multiset(r) == multiset(s)
    decreases |s|
  {
    if |s| == 0 then []
    else
      assert s == [s[0]] + s[1..];
      Insert(s[0], SortBy(s[1..], key), key)
  }

  lemma {:induction false} InsertBounded<T>(x: T, s: seq<T>, key: T -> int, k: int)
    requires forall i :: 0 <= i < |s| ==> k <= key(s[i])
    requires k <= key(x)
    ensures forall i :: 0 <= i < |s| + 1 ==> k <= key(Insert(x, s, key)[i])
    decreases |s|
  {
    if |s| != 0 && key(x) > key(s[0]) {
      InsertBounded(x, s[1..], key, k);
    }
  }

  lemma {:induction false} InsertSorted<T>(x: T, s: seq<T>, key: T -> int)
    requires SortedBy(s, key)
    ensures SortedBy(Insert(x, s, key), key)
    decreases |s|
  {
    if |s| != 0 && key(x) > key(s[0]) {
      InsertSorted(x, s[1..], key);
      InsertBounded(x, s[1..], key, key(s[0]));
    }
  }

  /** The sort's result is ordered by key. */
  lemma {:induction false} SortBySorted<T>(s: seq<T>, key: T -> int)
    ensures SortedBy(SortBy(s, key), key)
    decreases |s|
  {
    if |s| != 0 {
      SortBySorted(s[1..], key);
      InsertSorted(s[0], SortBy(s[1..], key), key);
    }
  }

  lemma {:induction false} InsertWithKey<T>(x: T, s: seq<T>, key: T -> int, k: int)
    ensures WithKey(Insert(x, s, key), key, k) == (if key(x) == k then [x] else []) + WithKey(s, key, k)
    decreases |s|
  {
    if |s| == 0 || key(x) <= key(s[0]) {
      assert Insert(x, s, key) == [x] + s;
      WithKeyCons(x, s, key, k);
    } else {
      InsertWithKey(x, s[1..], key, k);
      InsertBehind(x, s, key, k);
    }
  }

  /** The step of `InsertWithKey` when `x` goes behind the head. */
  lemma InsertBehind<T>(x: T, s: seq<T>, key: T -> int, k: int)
    requires |s| != 0 && key(x) > key(s[0])
    requires WithKey(Insert(x, s[1..], key), key, k) == (if key(x) == k then [x] else []) + WithKey(s[1..], key, k)
    ensures WithKey(Insert(x, s, key), key, k) == (if key(x) == k then [x] else []) + WithKey(s, key, k)
  {
    var rest := Insert(x, s[1..], key);
    assert Insert(x, s, key) == [s[0]] + rest;
    WithKeyCons(s[0], rest, key, k);
    WithKeyCons(s[0], s[1..], key, k);
    assert [s[0]] + s[1..] == s;
    var tail := WithKey(s[1..], key, k);
    if key(x) == k {
      assert key(s[0]) != k;
      assert WithKey(s, key, k) == tail;
    } else {
      assert WithKey(rest, key, k) == tail;
    }
  }

  lemma WithKeyCons<T>(y: T, t: seq<T>, key: T -> int, k: int)
    ensures WithKey([y] + t, key, k) == (if key(y) == k then [y] else []) + WithKey(t, key, k)
  {
    assert ([y] + t)[1..] == t;
  }

  /** The sort is stable: the elements of any one key keep their input order. */
  lemma {:induction false} SortStable<T>(s: seq<T>, key: T -> int, k: int)
    ensures WithKey(SortBy(s, key), key, k) == WithKey(s, key, k)
    decreases |s|
  {
    if |s| != 0 {
      SortStable(s[1..], key, k);
      InsertWithKey(s[0], SortBy(s[1..], key), key, k);
    }
  }

  lemma {:induction false} WithKeyMember<T>(s: seq<T>, key: T -> int, k: int, e: T)
    requires e in WithKey(s, key, k)
    ensures e in s && key(e) == k
    decreases |s|
  {
    if |s| != 0 && e !in (if key(s[0]) == k then [s[0]] else []) {
      WithKeyMember(s[1..], key, k, e);
    }
  }

  /** The head of a sorted list holds the smallest key, so it heads its key's elements. */
  lemma HeadWithKey<T>(s: seq<T>, key: T -> int)
    requires |s| != 0
    ensures WithKey(s, key, key(s[0])) == [s[0]] + WithKey(s[1..], key, key(s[0]))
  {
  }

  /** Two lists ordered by key that agree on the elements of every key, in order, are the
      same list. */
  lemma {:induction false} SortedStableUnique<T>(a: seq<T>, b: seq<T>, key: T -> int)
    requires SortedBy(a, key) && SortedBy(b, key)
    requires forall k :: WithKey(a, key, k) == WithKey(b, key, k)
    ensures a == b
    decreases |a| + |b|
  {
    if |a| == 0 && |b| == 0 {
    } else if |a| == 0 {
      HeadWithKey(b, key);
      assert false;
    } else if |b| == 0 {
      HeadWithKey(a, key);
      assert false;
    } else {
      var ka, kb := key(a[0]), key(b[0]);
      HeadWithKey(a, key);
      HeadWithKey(b, key);
      WithKeyMember(b, key, ka, WithKey(b, key, ka)[0]);
      WithKeyMember(a, key, kb, WithKey(a, key, kb)[0]);
      assert kb <= ka && ka <= kb;
      assert a[0] == b[0];
      forall k ensures WithKey(a[1..], key, k) == WithKey(b[1..], key, k) {
        var head := if key(a[0]) == k then [a[0]] else [];
        assert WithKey(a, key, k) == head + WithKey(a[1..], key, k);
        assert WithKey(b, key, k) == head + WithKey(b[1..], key, k);
        assert WithKey(a[1..], key, k) == WithKey(a, key, k)[|head|..];
        assert WithKey(b[1..], key, k) == WithKey(b, key, k)[|head|..];
      }
      SortedStableUnique(a[1..], b[1..], key);
      assert a == [a[0]] + a[1..] && b == [b[0]] + b[1..];
    }
  }

  /** The sort's result is the one arrangement of its input that is ordered by key and keeps
      every key's elements in input order. */
  lemma SortIsTheStableArrangement<T>(s: seq<T>, t: seq<T>, key: T -> int)
    requires SortedBy(t, key)
    requires forall k :: WithKey(t, key, k) == WithKey(s, key, k)
    ensures t == SortBy(s, key)
  {
    SortBySorted(s, key);
    forall k ensures WithKey(SortBy(s, key), key, k) == WithKey(t, key, k) {
      SortStable(s, key, k);
    }
    SortedStableUnique(SortBy(s, key), t, key);
  }
}

=== FILE: source_nodes.dfy ===
/**
 The engine's `sourceNodes` hook: walk the sub-plugins in configuration order, run each
 one's own `sourceNodes` with its client and options, tag what it returns with provenance,
 concatenate the returned groups per type name, apply the end user's per-type mappers,
 and turn every record of a registered type into a node-creation request.

 Two copies of the hook exist: `source-nodes.js` (tagging `meta.key`) and the older one
 inlined in `gatsby-node.js` (tagging `meta.source`); `Edition` selects between them.
 */
module Sourcing {
  import opened JsValues
  import opened NodeTypes
  import opened Fragments
  import opened Plugins

  /** Which copy of the hook is modelled. */
  datatype Edition = Current | Legacy

  /** The option the provenance tag copies next to the plugin name. */
  function ProvenanceKey(e: Edition): string {
    match e
    case Current => "key"
    case Legacy => "source"
  }

  /** The `meta` object a sub-plugin's records are tagged with. */
  function Provenance(e: Edition, p: SubPlugin): (meta: Value)
    ensures meta.Rec? && meta.fields.Keys == {"plugin", ProvenanceKey(e)}
    ensures meta.fields["plugin"] == p.name
    ensures meta.fields[ProvenanceKey(e)] == Get(OwnOptions(p), ProvenanceKey(e))
  {
    Rec(map["plugin" := p.name, ProvenanceKey(e) := Get(OwnOptions(p), ProvenanceKey(e))])
  }

  /** `{ ...data, meta }`: every own field of the record is kept, and `meta` is set,
      replacing any `meta` the record had. */
  function Tag(item: Value, meta: Value): (r: Value)
    ensures r.Rec?
    ensures r.fields.Keys == Spread(item).Keys + {"meta"}
    ensures r.fields["meta"] == meta
    ensures forall k :: k in Spread(item) && k != "meta" ==> r.fields[k] == Spread(item)[k]
  {
    Rec(Spread(item)["meta" := meta])
  }

  /** Records grouped by type name. */
  type Groups = map<string, seq<Value>>

  /** `g[k] ?? []` */
  function GroupOf(g: Groups, k: string): seq<Value> {
    if k in g then g[k] else []
  }

  predicate AllArrays(r: Record) {
    forall k :: k in r ==> r[k].Arr?
  }

  /** `for (const k in pluginData) pluginData[k] = pluginData[k].map(tag)`: every group a
      sub-plugin returns must be an array, otherwise `.map` throws. */
  function TagGroups(data: Value, meta: Value): (r: Result<Groups>)
    ensures r.Ok? <==> AllArrays(Spread(data))
    ensures r.Ok? ==> r.value.Keys == Spread(data).Keys
    ensures r.Ok? ==> forall k :: k in r.value ==>
      |r.value[k]| == |Spread(data)[k].items| &&
      forall i :: 0 <= i < |r.value[k]| ==> r.value[k][i] == Tag(Spread(data)[k].items[i], meta)
  {
    var g := Spread(data);
    if AllArrays(g) then
      Ok(TagEach(g, meta))
    else
      Err(TypeError("pluginData[k].map is not a function"))
  }

  /** Every group of `g` tagged. */
  function TagEach(g: Record, meta: Value): Groups
    requires AllArrays(g)
  {
    map k | k in g :: TagAll(g[k].items, meta)
  }

  /** `items.map((data) => ({ ...data, meta }))` */
  function TagAll(items: seq<Value>, meta: Value): (r: seq<Value>)
    ensures |r| == |items|
    ensures forall i :: 0 <= i < |items| ==> r[i] == Tag(items[i], meta)
    decreases |items|
  {
    if |items| == 0 then [] else [Tag(items[0], meta)] + TagAll(items[1..], meta)
  }

  /** What one walk of the sub-plugin list shares between the plugins. */
  datatype SourceEnv = SourceEnv(
    edition: Edition,
    topToken: Value,
    fragments: FragmentTable,
    apiTypes: Tree,
    nodeTypes: Tree)

  /** One invocation of a sub-plugin's `sourceNodes`: which plugin, with which context and
      which options. */
  datatype SourceCall = SourceCall(plugin: Value, context: SourceContext, options: Record)

  /** `resolvedPlugin?.sourceNodes?.(...)` calls something. */
  predicate HasSourceNodes(p: SubPlugin) {
    p.pluginModule.Some? && p.pluginModule.value.sourceNodes.Some?
  }

  /** The call a sub-plugin's turn makes: the plugin's own options without `token`, and a
      client authenticated with the plugin's own token when it has one, else the top-level
      token, and only when that token is a string. */
  function CallFor(p: SubPlugin, env: SourceEnv): (c: SourceCall)
    ensures c.plugin == p.name
    ensures c.context.pluginNodeTypes == env.nodeTypes
    ensures "token" !in c.options
    ensures forall k :: k in OwnOptions(p) && k != "token" ==> k in c.options && c.options[k] == OwnOptions(p)[k]
    ensures forall k :: k in c.options ==> k in OwnOptions(p)
    ensures c.context.graphql.Authenticated? <==> Coalesce(Get(OwnOptions(p), "token"), env.topToken).Str?
    ensures c.context.graphql.Authenticated? ==>
      Coalesce(Get(OwnOptions(p), "token"), env.topToken) == Str(c.context.graphql.token)
  {
    SourceCall(p.name, SourceContext(SubPluginClient(p, env.topToken), env.fragments, env.apiTypes, env.nodeTypes),
               ForwardedOptions(p))
  }

  /** How one sub-plugin's turn ends: not called, called and returned `undefined`, called and
      contributed groups, or called and the whole hook aborted. */
  datatype Settled = Skipped | Silent | Contributed(groups: Groups) | Aborted(error: JsError)

  /** What the sub-plugin's `sourceNodes` gives back for the call its turn makes. */
  function SourceNodesResult(p: SubPlugin, env: SourceEnv): SourceOutcome
    requires HasSourceNodes(p)
  {
    var call := CallFor(p, env);
    p.pluginModule.value.sourceNodes.value(call.context, call.options)
  }

  /** A turn is skipped exactly when there is nothing to call; a call that throws aborts the
      hook, one that returns `undefined` contributes nothing, and one that returns groups
      contributes them tagged, or aborts when a group is not an array. */
  function Settle(p: SubPlugin, env: SourceEnv): (s: Settled)
    ensures s.Skipped? <==> !HasSourceNodes(p)
    ensures HasSourceNodes(p) && SourceNodesResult(p, env).Failed? ==>
      s == Aborted(Thrown(SourceNodesResult(p, env).reason))
    ensures HasSourceNodes(p) ==> (s.Silent? <==> SourceNodesResult(p, env) == Returned(Undefined))
    ensures HasSourceNodes(p) && SourceNodesResult(p, env).Returned? && !SourceNodesResult(p, env).data.Undefined? ==>
      var tagged := TagGroups(SourceNodesResult(p, env).data, Provenance(env.edition, p));
      && (s.Contributed? <==> tagged.Ok?)
      && (tagged.Ok? ==> s == Contributed(tagged.value))
      && (tagged.Err? ==> s == Aborted(tagged.error))
  {
    if !HasSourceNodes(p) then Skipped
    else
      match SourceNodesResult(p, env)
      case Failed(reason) => Aborted(Thrown(reason))
      case Returned(data) =>
        if data.Undefined? then Silent
        else
          match TagGroups(data, Provenance(env.edition, p))
          case Err(e) => Aborted(e)
          case Ok(g) => Contributed(g)
  }

  /** The call one sub-plugin's turn makes, if any. */
  function CallOf(p: SubPlugin, env: SourceEnv): seq<SourceCall> {
    if HasSourceNodes(p) then [CallFor(p, env)] else []
  }

  /** The groups one sub-plugin's turn contributes, if any. */
  function ContributionOf(s: Settled): seq<Groups> {
    if s.Contributed? then [s.groups] else []
  }

  // ---------------------------------------------------------------------------
  // The walk, over any list and any way its elements' turns end

  /** The calls made over a list in which no turn aborts, in order. */
  function CallsWith<P>(ps: seq<P>, call: P -> seq<SourceCall>): seq<SourceCall>
    decreases |ps|
  {
    if |ps| == 0 then [] else CallsWith(ps[..|ps| - 1], call) + call(ps[|ps| - 1])
  }

  /** The groups contributed over a list in which no turn aborts, in order. */
  function ContributionsWith<P>(ps: seq<P>, settle: P -> Settled): (gs: seq<Groups>)
    ensures |gs| <= |ps|
    decreases |ps|
  {
    if |ps| == 0 then [] else ContributionsWith(ps[..|ps| - 1], settle) + ContributionOf(settle(ps[|ps| - 1]))
  }

  /** One more element adds its own call and contribution at the end. */
  lemma WalkSnoc<P>(ps: seq<P>, i: int, settle: P -> Settled, call: P -> seq<SourceCall>)
    requires 0 <= i < |ps|
    ensures CallsWith(ps[..i + 1], call) == CallsWith(ps[..i], call) + call(ps[i])
    ensures ContributionsWith(ps[..i + 1], settle) == ContributionsWith(ps[..i], settle) + ContributionOf(settle(ps[i]))
  {
    assert ps[..i + 1][..i] == ps[..i];
    assert ps[..i + 1][i] == ps[i];
  }

  /** The loop: turns are taken one after another, and the first one that aborts ends the
      walk before any later element's turn. */
  method Walk<P>(ps: seq<P>, settle: P -> Settled, call: P -> seq<SourceCall>)
    returns (calls: seq<SourceCall>, contributions: seq<Groups>, failure: Option<JsError>)
    ensures failure.None? <==> forall j :: 0 <= j < |ps| ==> !settle(ps[j]).Aborted?
    ensures failure.None? ==> calls == CallsWith(ps, call) && contributions == ContributionsWith(ps, settle)
    ensures failure.Some? ==>
      exists j :: 0 <= j < |ps| && settle(ps[j]) == Aborted(failure.value)
        && (forall i :: 0 <= i < j ==> !settle(ps[i]).Aborted?)
        && calls == CallsWith(ps[..j + 1], call)
        && contributions == ContributionsWith(ps[..j], settle)
  {
    calls, contributions, failure := [], [], None;
    var i := 0;
    while i < |ps|
      invariant 0 <= i <= |ps|
      invariant forall j :: 0 <= j < i ==> !settle(ps[j]).Aborted?
      invariant calls == CallsWith(ps[..i], call)
      invariant contributions == ContributionsWith(ps[..i], settle)
    {
      var settled := settle(ps[i]);
      WalkSnoc(ps, i, settle, call);
      calls := calls + call(ps[i]);
      if settled.Aborted? {
        failure := Some(settled.error);
        return;
      }
      contributions := contributions + ContributionOf(settled);
      i := i + 1;
    }
    assert ps[..|ps|] == ps;
  }

  lemma {:induction false} ContributionsWithConcat<P>(a: seq<P>, b: seq<P>, settle: P -> Settled)
    ensures ContributionsWith(a + b, settle) == ContributionsWith(a, settle) + ContributionsWith(b, settle)
    decreases |b|
  {
    if |b| == 0 {
      assert a + b == a;
    } else {
      var b' := b[..|b| - 1];
      assert (a + b)[..|a + b| - 1] == a + b';
      assert (a + b)[|a + b| - 1] == b[|b| - 1];
      ContributionsWithConcat(a, b', settle);
    }
  }

  // ---------------------------------------------------------------------------
  // The walk over the sub-plugins

  /** Every sub-plugin's turn in the environment `env`. */
  function SettleIn(env: SourceEnv): SubPlugin -> Settled {
    p => Settle(p, env)
  }

  /** Every sub-plugin's call in the environment `env`. */
  function CallIn(env: SourceEnv): SubPlugin -> seq<SourceCall> {
    p => CallOf(p, env)
  }

  /** The sub-plugin calls made over a list in which no plugin aborts, in order. */
  function CallsOf(ps: seq<SubPlugin>, env: SourceEnv): seq<SourceCall> {
    CallsWith(ps, CallIn(env))
  }

  /** The groups contributed over a list in which no plugin aborts, in order. */
  function ContributionsOf(ps: seq<SubPlugin>, env: SourceEnv): seq<Groups> {
    ContributionsWith(ps, SettleIn(env))
  }

  predicate Aborts(p: SubPlugin, env: SourceEnv) {
    Settle(p, env).Aborted?
  }

  /** No sub-plugin of the list aborts the walk. */
  predicate NoAbort(ps: seq<SubPlugin>, env: SourceEnv) {
    forall j :: 0 <= j < |ps| ==> !Aborts(ps[j], env)
  }

  /** `ps[j]` is the first sub-plugin of the list that aborts the walk. */
  predicate FirstAbortAt(ps: seq<SubPlugin>, env: SourceEnv, j: int) {
    0 <= j < |ps| && Aborts(ps[j], env) && forall i :: 0 <= i < j ==> !Aborts(ps[i], env)
  }

  /** The loop over `pluginOptions.plugins ?? []`. Plugins are called one after another; the
      first one that throws (or returns a group that is not an array) ends the hook, and no
      later plugin is called. */
  method InvokePlugins(ps: seq<SubPlugin>, env: SourceEnv)
    returns (calls: seq<SourceCall>, contributions: seq<Groups>, failure: Option<JsError>)
    ensures failure.None? <==> NoAbort(ps, env)
    ensures failure.None? ==> calls == CallsOf(ps, env) && contributions == ContributionsOf(ps, env)
    ensures failure.Some? ==>
      exists j :: FirstAbortAt(ps, env, j)
        && Settle(ps[j], env) == Aborted(failure.value)
        && calls == CallsOf(ps[..j + 1], env)
        && contributions == ContributionsOf(ps[..j], env)
  {
    calls, contributions, failure := Walk(ps, SettleIn(env), CallIn(env));
    if failure.Some? {
      ghost var j :| 0 <= j < |ps| && SettleIn(env)(ps[j]) == Aborted(failure.value)
        && (forall i :: 0 <= i < j ==> !SettleIn(env)(ps[i]).Aborted?)
        && calls == CallsWith(ps[..j + 1], CallIn(env))
        && contributions == ContributionsWith(ps[..j], SettleIn(env));
      assert FirstAbortAt(ps, env, j);
    }
  }

  /** Contributions are collected plugin by plugin, so a list split in two contributes the
      contributions of its first part followed by those of its second. */
  lemma ContributionsOfConcat(a: seq<SubPlugin>, b: seq<SubPlugin>, env: SourceEnv)
    ensures ContributionsOf(a + b, env) == ContributionsOf(a, env) + ContributionsOf(b, env)
  {
    ContributionsWithConcat(a, b, SettleIn(env));
  }

  /** A sub-plugin without `sourceNodes`, or whose `sourceNodes` returns `undefined`,
      contributes nothing: dropping it from the list leaves the contributions unchanged. */
  lemma SilentPluginContributesNothing(ps: seq<SubPlugin>, j: int, env: SourceEnv)
    requires 0 <= j < |ps|
    requires !HasSourceNodes(ps[j]) || SourceNodesResult(ps[j], env) == Returned(Undefined)
    ensures ContributionsOf(ps[..j] + ps[j + 1..], env) == ContributionsOf(ps, env)
  {
    var pre, mid, post := ps[..j], [ps[j]], ps[j + 1..];
    assert ps == (pre + mid) + post;
    assert ContributionsOf(mid, env) == [] by {
      WalkSnoc(mid, 0, SettleIn(env), CallIn(env));
      assert mid[..1] == mid;
    }
    var cPre, cPost := ContributionsOf(pre, env), ContributionsOf(post, env);
    ContributionsOfConcat(pre, mid, env);
    assert ContributionsOf(pre + mid, env) == cPre;
    ContributionsOfConcat(pre + mid, post, env);
    assert ContributionsOf(ps, env) == cPre + cPost;
    ContributionsOfConcat(pre, post, env);
  }

  /** `dataByType[k] = [...(dataByType[k] ?? []), ...(pluginData[k] ?? [])]` for every key
      of one plugin's groups. */
  function AddGroups(acc: Groups, g: Groups): (r: Groups)
    ensures r.Keys == acc.Keys + g.Keys
  {
    map k | k in acc.Keys + g.Keys :: GroupOf(acc, k) + GroupOf(g, k)
  }

  /** `dataByType`: the contributions folded in plugin order. */
  function FanIn(cs: seq<Groups>): Groups
    decreases |cs|
  {
    if |cs| == 0 then map[] else AddGroups(FanIn(cs[..|cs| - 1]), cs[|cs| - 1])
  }

  /** Reference: the records every contribution holds for `k`, first plugin first. */
  function Concatenated(cs: seq<Groups>, k: string): seq<Value>
    decreases |cs|
  {
    if |cs| == 0 then [] else GroupOf(cs[0], k) + Concatenated(cs[1..], k)
  }

  /** Reference: how many records the contributions hold for `k`. */
  function TotalCount(cs: seq<Groups>, k: string): nat
    decreases |cs|
  {
    if |cs| == 0 then 0 else |GroupOf(cs[0], k)| + TotalCount(cs[1..], k)
  }

  lemma {:induction false} ConcatenatedSnoc(cs: seq<Groups>, c: Groups, k: string)
    ensures Concatenated(cs + [c], k) == Concatenated(cs, k) + GroupOf(c, k)
    decreases |cs|
  {
    if |cs| == 0 {
      assert Concatenated([c], k) == GroupOf(c, k) + Concatenated([], k);
    } else {
      assert (cs + [c])[1..] == cs[1..] + [c];
      ConcatenatedSnoc(cs[1..], c, k);
    }
  }

  /** Some contribution holds a group for `k`. */
  predicate Mentions(cs: seq<Groups>, k: string) {
    exists i :: 0 <= i < |cs| && k in cs[i]
  }

  lemma MentionsSnoc(init: seq<Groups>, c: Groups, k: string)
    ensures Mentions(init + [c], k) <==> Mentions(init, k) || k in c
  {
    var cs := init + [c];
    if Mentions(init, k) {
      var i :| 0 <= i < |init| && k in init[i];
      assert cs[i] == init[i];
    }
    if k in c {
      assert cs[|init|] == c;
    }
    if Mentions(cs, k) && k !in c {
      var i :| 0 <= i < |cs| && k in cs[i];
      assert i < |init| && cs[i] == init[i];
    }
  }

  /** The fan-in for one type: it has a list exactly when some plugin returned a group for
      it, and that list is the plugins' groups for it laid end to end. */
  lemma {:induction false} FanInAt(cs: seq<Groups>, k: string)
    ensures k in FanIn(cs) <==> Mentions(cs, k)
    ensures GroupOf(FanIn(cs), k) == Concatenated(cs, k)
    decreases |cs|
  {
    if |cs| != 0 {
      var init := cs[..|cs| - 1];
      var c := cs[|cs| - 1];
      assert cs == init + [c];
      FanInAt(init, k);
      ConcatenatedSnoc(init, c, k);
      MentionsSnoc(init, c, k);
    }
  }

  /** The aggregated list for a type is the concatenation over plugins in configuration
      order, and a type has a list exactly when some plugin returned a group for it. */
  lemma FanInConcatenates(cs: seq<Groups>)
    ensures forall k :: k in FanIn(cs) <==> exists i :: 0 <= i < |cs| && k in cs[i]
    ensures forall k :: GroupOf(FanIn(cs), k) == Concatenated(cs, k)
  {
    forall k ensures (k in FanIn(cs) <==> Mentions(cs, k)) && GroupOf(FanIn(cs), k) == Concatenated(cs, k) {
      FanInAt(cs, k);
    }
  }

  lemma {:induction false} ConcatenatedLength(cs: seq<Groups>, k: string)
    ensures |Concatenated(cs, k)| == TotalCount(cs, k)
    decreases |cs|
  {
    if |cs| != 0 {
      ConcatenatedLength(cs[1..], k);
    }
  }

  /** The aggregated list of a type is as long as all plugins' groups for it together. */
  lemma FanInCount(cs: seq<Groups>, k: string)
    ensures |GroupOf(FanIn(cs), k)| == TotalCount(cs, k)
  {
    FanInAt(cs, k);
    ConcatenatedLength(cs, k);
  }

  /** `xs.map(f)` */
  function MapAll(f: Value -> Value, xs: seq<Value>): (r: seq<Value>)
    ensures |r| == |xs|
    ensures forall i :: 0 <= i < |xs| ==> r[i] == f(xs[i])
  {
    seq(|xs|, i requires 0 <= i < |xs| => f(xs[i]))
  }

  /** `f` applied `n` times. */
  function Iterate(f: Value -> Value, n: nat, v: Value): Value
    decreases n
  {
    if n == 0 then v else Iterate(f, n - 1, f(v))
  }

  /** How many registry values coerce to the key `k`. */
  function Occurrences(types: seq<Tree>, k: string): nat
    decreases |types|
  {
    if |types| == 0 then 0
    else (if TypeString(types[0]) == k then 1 else 0) + Occurrences(types[1..], k)
  }

  /** The custom-mapper pass: for every registry value in order, a function entry of the
      mapper under that type name replaces the type's list by its image; a type with a
      mapper but no aggregated list makes `dataByType[type].map` throw. */
  function ApplyMappers(types: seq<Tree>, mappers: CustomMapper, data: Groups): (r: Result<Groups>)
    ensures r.Ok? ==> r.value.Keys == data.Keys
    ensures r.Err? ==> r.error.TypeError?
    decreases |types|
  {
    if |types| == 0 then Ok(data)
    else
      var k := TypeString(types[0]);
      if k !in mappers then ApplyMappers(types[1..], mappers, data)
      else if k !in data then Err(TypeError("dataByType[type] is undefined"))
      else ApplyMappers(types[1..], mappers, data[k := MapAll(mappers[k], data[k])])
  }

  /** The mapper pass fails exactly when some registered type with a mapper has no list;
      otherwise it keeps every list's length and order, leaves lists without a mapper
      alone, and maps each record of a list with a mapper once per registry value naming
      that type. */
  lemma {:induction false} MapperEffect(types: seq<Tree>, mappers: CustomMapper, data: Groups)
    ensures var r := ApplyMappers(types, mappers, data);
      && (r.Ok? <==> forall j :: 0 <= j < |types| && TypeString(types[j]) in mappers ==> TypeString(types[j]) in data)
      && (r.Ok? ==> forall k :: k in data ==> |r.value[k]| == |data[k]|)
      && (r.Ok? ==> forall k :: k in data && k !in mappers ==> r.value[k] == data[k])
      && (r.Ok? ==> forall k, i :: k in data && k in mappers && 0 <= i < |data[k]| ==>
            r.value[k][i] == Iterate(mappers[k], Occurrences(types, k), data[k][i]))
    decreases |types|
  {
    if |types| != 0 {
      var k := TypeString(types[0]);
      var rest := types[1..];
      assert forall j :: 1 <= j < |types| ==> types[j] == rest[j - 1];
      if k !in mappers {
        MapperEffect(rest, mappers, data);
      } else if k !in data {
      } else {
        var data' := data[k := MapAll(mappers[k], data[k])];
        MapperEffect(rest, mappers, data');
        assert data'.Keys == data.Keys;
      }
    }
  }

  /** `MEDIA_TYPES.MARKDOWN`; the media-types module is not part of this model, so the
      value is taken as a constant. */
  const MarkdownMediaType: Value := Str("text/markdown")

  /** `case pluginNodeTypes.DISCUSSION: case pluginNodeTypes.ISSUE:` with strict equality:
      only a role value that is that very string matches. */
  predicate IsMarkdownType(reg: Tree, typeName: string) {
    RoleValue(reg, "DISCUSSION") == Some(Leaf(typeName)) || RoleValue(reg, "ISSUE") == Some(Leaf(typeName))
  }

  /** The string handed to `createNodeId`: `${type} >>> ${item.id}`. */
  function CompositeKey(typeName: string, id: Value): string {
    typeName + " >>> " + ToDisplayString(id)
  }

  /** Position of the first `>` in a string, or its length when it has none. */
  function FirstGt(c: string): (n: nat)
    ensures n <= |c|
    decreases |c|
  {
    if |c| == 0 then 0 else if c[0] == '>' then 0 else 1 + FirstGt(c[1..])
  }

  lemma {:induction false} FirstGtAfterName(t: string, rest: string)
    requires '>' !in t
    ensures FirstGt(t + " >" + rest) == |t| + 1
    decreases |t|
  {
    if |t| == 0 {
      assert t + " >" + rest == [' '] + (">" + rest);
      assert (t + " >" + rest)[1..] == ">" + rest;
    } else {
      assert (t + " >" + rest)[1..] == t[1..] + " >" + rest;
      assert '>' !in t[1..] by {
        forall i | 0 <= i < |t[1..]| ensures t[1..][i] != '>' {
          assert t[1..][i] == t[i + 1];
        }
      }
      FirstGtAfterName(t[1..], rest);
    }
  }

  /** The composite key names its type and its record's id unambiguously as long as type
      names contain no `>` (GraphQL type names cannot). */
  lemma CompositeKeyInjective(t1: string, id1: Value, t2: string, id2: Value)
    requires '>' !in t1 && '>' !in t2
    requires CompositeKey(t1, id1) == CompositeKey(t2, id2)
    ensures t1 == t2
    ensures ToDisplayString(id1) == ToDisplayString(id2)
  {
    KeyParts(t1, ToDisplayString(id1));
    KeyParts(t2, ToDisplayString(id2));
  }

  /** The type name ends just before the first `>`; the id follows the separator. */
  lemma KeyParts(t: string, s: string)
    requires '>' !in t
    ensures var c := t + " >>> " + s;
      && FirstGt(c) == |t| + 1 && |c| == |t| + 5 + |s|
      && c[..|t|] == t && c[|t| + 5..] == s
  {
    var c := t + " >>> " + s;
    assert c == t + " >" + (">> " + s);
    FirstGtAfterName(t, ">> " + s);
  }

  /** The Gatsby helpers node construction calls. */
  datatype NodeApi = NodeApi(createNodeId: string -> string, createContentDigest: Value -> string)

  /** The fields the engine writes over a record's own. */
  const ReservedFields: set<string> := {"githubId", "id", "parent", "children", "internal"}

  /** `internal`: the node's type, the digest of the record, and for the markdown types the
      record's `body` with the markdown media type. */
  function InternalFor(reg: Tree, typeName: string, item: Value, api: NodeApi): (r: Record)
    requires !IsNullish(item)
    ensures r.Keys == {"type", "contentDigest", "content", "mediaType"}
    ensures r["type"] == Str(typeName)
    ensures r["contentDigest"] == Str(api.createContentDigest(item))
    ensures IsMarkdownType(reg, typeName) ==> r["content"] == Property(item, "body").value && r["mediaType"] == MarkdownMediaType
    ensures !IsMarkdownType(reg, typeName) ==> r["content"] == Undefined && r["mediaType"] == Undefined
  {
    var markdown := IsMarkdownType(reg, typeName);
    map["type" := Str(typeName),
        "contentDigest" := Str(api.createContentDigest(item)),
        "content" := if markdown then Property(item, "body").value else Undefined,
        "mediaType" := if markdown then MarkdownMediaType else Undefined]
  }

  /** `{ ...item, githubId, id, parent: null, children: [], internal }` */
  function Stamp(fields: Record, githubId: Value, id: string, internal: Record): (r: Record)
    ensures r.Keys == fields.Keys + ReservedFields
    ensures forall k :: k in fields && k !in ReservedFields ==> r[k] == fields[k]
    ensures r["githubId"] == githubId && r["id"] == Str(id) && r["internal"] == Rec(internal)
    ensures r["parent"] == Null && r["children"] == Arr([])
  {
    fields["githubId" := githubId]["id" := Str(id)]["parent" := Null]["children" := Arr([])]["internal" := Rec(internal)]
  }

  /** The node-creation request for one record of a registered type. A `null` or
      `undefined` record throws at `item.id`. */
  function NodeFor(reg: Tree, typeName: string, item: Value, api: NodeApi): (r: Result<Record>)
    ensures r.Err? <==> IsNullish(item)
    ensures r.Ok? ==> r.value.Keys == Spread(item).Keys + ReservedFields
    ensures r.Ok? ==> forall k :: k in Spread(item) && k !in ReservedFields ==> r.value[k] == Spread(item)[k]
    ensures r.Ok? ==> r.value["githubId"] == Property(item, "id").value
    ensures r.Ok? ==> r.value["id"] == Str(api.createNodeId(CompositeKey(typeName, Property(item, "id").value)))
    ensures r.Ok? ==> r.value["parent"] == Null && r.value["children"] == Arr([])
    ensures r.Ok? ==> r.value["internal"] == Rec(InternalFor(reg, typeName, item, api))
  {
    if IsNullish(item) then Err(TypeError("cannot read properties of " + ToDisplayString(item)))
    else
      var id := Property(item, "id").value;
      Ok(Stamp(Spread(item), id, api.createNodeId(CompositeKey(typeName, id)), InternalFor(reg, typeName, item, api)))
  }

  /** The record a node was made from, read back off the node: the engine's fields removed
      and the original `id` restored from `githubId`. */
  function OriginalRecord(node: Record): Record
    requires "githubId" in node
  {
    (node - ReservedFields)["id" := node["githubId"]]
  }

  /** A record with an `id` and none of the other engine-written fields is recovered
      exactly from its node. */
  lemma NodeKeepsRecord(reg: Tree, typeName: string, item: Value, api: NodeApi)
    requires item.Rec?
    requires "id" in item.fields
    requires forall k :: k in ReservedFields && k != "id" ==> k !in item.fields
    ensures NodeFor(reg, typeName, item, api).Ok?
    ensures OriginalRecord(NodeFor(reg, typeName, item, api).value) == item.fields
  {
    var node := NodeFor(reg, typeName, item, api).value;
    var fields := item.fields;
    var back := OriginalRecord(node);
    assert back.Keys == fields.Keys;
    forall k | k in fields ensures back[k] == fields[k] {
    }
  }

  /** Nodes are requested for the records of registered types only; a record that is
      `null` or `undefined` in a registered group makes the hook throw. */
  function Materialize(reg: Tree, data: Groups, api: NodeApi): (r: Result<map<string, seq<Record>>>)
    ensures r.Ok? <==> forall t, i :: t in data && IsRegistered(reg, t) && 0 <= i < |data[t]| ==> !IsNullish(data[t][i])
    ensures r.Err? ==> r.error.TypeError?
    ensures r.Ok? ==> r.value.Keys == set t | t in data && IsRegistered(reg, t)
    ensures r.Ok? ==> forall t :: t in r.value ==>
      (|r.value[t]| == |data[t]| && forall i :: 0 <= i < |data[t]| ==> NodeFor(reg, t, data[t][i], api) == Ok(r.value[t][i]))
  {
    if forall t, i :: t in data && IsRegistered(reg, t) && 0 <= i < |data[t]| ==> !IsNullish(data[t][i]) then
      Ok(map t | t in data && IsRegistered(reg, t) ::
           seq(|data[t]|, i requires 0 <= i < |data[t]| => NodeFor(reg, t, data[t][i], api).value))
    else
      Err(TypeError("cannot read properties of null"))
  }

  /** A record with its provenance tag removed. */
  function WithoutMeta(v: Value): (r: Value)
    ensures v.Rec? ==> r.Rec? && r.fields.Keys == v.fields.Keys - {"meta"}
  {
    if v.Rec? then Rec(v.fields - {"meta"}) else v
  }

  /** Groups with every provenance tag removed. */
  function UntagGroups(g: Groups): Groups {
    map k | k in g :: MapAll(WithoutMeta, g[k])
  }

  /** A sub-plugin's turn with every provenance tag removed. */
  function Untagged(s: Settled): Settled {
    match s
    case Contributed(g) => Contributed(UntagGroups(g))
    case _ => s
  }

  lemma TagThenUntag(item: Value, meta: Value)
    ensures WithoutMeta(Tag(item, meta)) == Rec(Spread(item) - {"meta"})
  {
    var r := WithoutMeta(Tag(item, meta)).fields;
    assert r.Keys == Spread(item).Keys - {"meta"};
    forall k | k in r ensures r[k] == Spread(item)[k] {
    }
  }

  /** One list tagged two ways is the same list once the tags are removed. */
  lemma UntagAll(items: seq<Value>, m1: Value, m2: Value)
    ensures MapAll(WithoutMeta, TagAll(items, m1)) == MapAll(WithoutMeta, TagAll(items, m2))
  {
    var a, b := TagAll(items, m1), TagAll(items, m2);
    forall i | 0 <= i < |items| ensures WithoutMeta(a[i]) == WithoutMeta(b[i]) {
      TagThenUntag(items[i], m1);
      TagThenUntag(items[i], m2);
    }
  }

  /** Groups tagged two ways are the same groups once the tags are removed. */
  lemma UntagEach(g: Record, m1: Value, m2: Value)
    requires AllArrays(g)
    ensures UntagGroups(TagEach(g, m1)) == UntagGroups(TagEach(g, m2))
  {
    var u1, u2 := UntagGroups(TagEach(g, m1)), UntagGroups(TagEach(g, m2));
    assert u1.Keys == g.Keys == u2.Keys;
    forall k | k in u1 ensures u1[k] == u2[k] {
      UntagAll(g[k].items, m1, m2);
    }
  }

  /** Tagging the same groups with two provenance tags gives the same groups once the tags
      are removed; whether tagging fails does not depend on the tag. */
  lemma TagGroupsUntagged(data: Value, m1: Value, m2: Value)
    ensures TagGroups(data, m1).Ok? <==> TagGroups(data, m2).Ok?
    ensures TagGroups(data, m1).Ok? ==>
      UntagGroups(TagGroups(data, m1).value) == UntagGroups(TagGroups(data, m2).value)
  {
    if AllArrays(Spread(data)) {
      UntagEach(Spread(data), m1, m2);
    }
  }

  /** The two copies of the hook call every sub-plugin alike and differ only in the
      provenance tag: `{plugin, key}` in one, `{plugin, source}` in the other. Apart from
      `meta`, every sub-plugin's turn ends the same way in both. */
  lemma EditionsDifferOnlyInMeta(p: SubPlugin, env: SourceEnv)
    ensures CallFor(p, env.(edition := Current)) == CallFor(p, env.(edition := Legacy))
    ensures Untagged(Settle(p, env.(edition := Current))) == Untagged(Settle(p, env.(edition := Legacy)))
  {
    var cur, leg := env.(edition := Current), env.(edition := Legacy);
    var call := CallFor(p, cur);
    assert CallFor(p, leg) == call;
    if HasSourceNodes(p) {
      var out := p.pluginModule.value.sourceNodes.value(call.context, call.options);
      if out.Returned? && !out.data.Undefined? {
        TagGroupsUntagged(out.data, Provenance(Current, p), Provenance(Legacy, p));
      }
    }
  }

  /** The record a sub-plugin list contributes once no plugin aborted and the mappers ran. */
  datatype SourcingRun = SourcingRun(calls: seq<SourceCall>, nodes: Result<map<string, seq<Record>>>)

  /** `pluginOptions.plugins ?? []` */
  function PluginsOrEmpty(l: PluginList): seq<SubPlugin> {
    match l
    case Listed(items) => items
    case _ => []
  }

  /** The environment the walk runs in, resolved from the top-level options; its fragment
      table has an entry for exactly the roles of its registry. */
  function EnvFor(opts: EngineOptions, edition: Edition): (env: SourceEnv)
    ensures env.fragments.Keys == RoleKeys(env.nodeTypes)
  {
    var reg := GetPluginNodeTypes(opts.pluginNodeTypes);
    SourceEnv(edition, Get(opts.settings, "token"), GetGithubPlainResolverFields(reg), GetGithubApiTypes(None), reg)
  }

  /** The aggregated and mapped groups, before node construction. */
  function Aggregate(opts: EngineOptions, contributions: seq<Groups>): (r: Result<Groups>)
    ensures opts.createCustomMapper.None? ==> r == Ok(FanIn(contributions))
    ensures r.Err? ==> r.error.TypeError?
  {
    var reg := GetPluginNodeTypes(opts.pluginNodeTypes);
    match opts.createCustomMapper
    case None => Ok(FanIn(contributions))
    case Some(factory) => ApplyMappers(TypeValues(reg), factory(reg), FanIn(contributions))
  }

  /** What the hook produces once every sub-plugin has run without aborting. */
  function Completed(opts: EngineOptions, contributions: seq<Groups>, api: NodeApi): Result<map<string, seq<Record>>> {
    match Aggregate(opts, contributions)
    case Err(e) => Err(e)
    case Ok(data) => Materialize(GetPluginNodeTypes(opts.pluginNodeTypes), data, api)
  }

  /** The walk over `ps` in the environment `env`, then the fan-in, the mappers and node
      construction when no sub-plugin aborts. */
  method RunPlugins(opts: EngineOptions, ps: seq<SubPlugin>, env: SourceEnv, api: NodeApi) returns (run: SourcingRun)
    ensures NoAbort(ps, env) ==>
      run.calls == CallsOf(ps, env) && run.nodes == Completed(opts, ContributionsOf(ps, env), api)
    ensures !NoAbort(ps, env) ==>
      run.nodes.Err? && exists j :: FirstAbortAt(ps, env, j) && run.calls == CallsOf(ps[..j + 1], env)
  {
    var calls, contributions, failure := InvokePlugins(ps, env);
    if failure.Some? {
      ghost var j :| FirstAbortAt(ps, env, j) && calls == CallsOf(ps[..j + 1], env);
      return SourcingRun(calls, Err(failure.value));
    }
    run := SourcingRun(calls, Completed(opts, contributions, api));
  }

  /** The whole hook: `userPluginOptions ?? {}`, the walk, the fan-in, the mappers and node
      construction. When a sub-plugin aborts, the calls made are those up to and including
      that plugin's and no node is requested. */
  method SourceNodes(userOptions: Option<EngineOptions>, edition: Edition, api: NodeApi) returns (run: SourcingRun)
    ensures var opts := userOptions.GetOr(EmptyOptions);
      NoAbort(PluginsOrEmpty(opts.plugins), EnvFor(opts, edition)) ==>
        run.calls == CallsOf(PluginsOrEmpty(opts.plugins), EnvFor(opts, edition)) &&
        run.nodes == Completed(opts, ContributionsOf(PluginsOrEmpty(opts.plugins), EnvFor(opts, edition)), api)
    ensures var opts := userOptions.GetOr(EmptyOptions);
      !NoAbort(PluginsOrEmpty(opts.plugins), EnvFor(opts, edition)) ==>
        run.nodes.Err? &&
        exists j :: FirstAbortAt(PluginsOrEmpty(opts.plugins), EnvFor(opts, edition), j) &&
          run.calls == CallsOf(PluginsOrEmpty(opts.plugins)[..j + 1], EnvFor(opts, edition))
  {
    var opts := userOptions.GetOr(EmptyOptions);
    run := RunPlugins(opts, PluginsOrEmpty(opts.plugins), EnvFor(opts, edition), api);
  }
}
